=== FILE: README.md ===
# PerClusterMOG in Dafny

This project models `PerClusterMOG`, a per-cluster mixture-of-Gaussians clusterer. It groups program variables by the numeric values they were observed to take.

- Each variable is a list of observed values.
- Each of `K` clusters (12 in the source) owns `C` Gaussian components (3 in the source).
- The clusterer runs expectation maximisation over these:
  - The **E-step** scores every cluster for every variable. A cluster's score is the sum, over the variable's distinct values, of each value's best finite log-density among the cluster's components. Each variable goes to the first cluster with the greatest score. Its distinct values go to the component pools of that cluster.
  - The **M-step** refits every component. It uses the mean and variance of its pool, or those of a fresh random sample when the pool is too small or has no spread. It then re-estimates the cluster and component priors with add-one smoothing.
- Before the loop:
  - **initializeEM** fits every component to a random sample and sets uniform priors;
  - **printUniqueCount** drops every variable with more than 200 distinct values.
- The random samples come from the three `getRandomSamples` overloads. They draw from the 10 000 smallest values, from the 10 000 largest values, or from any observation of any listed variable.

The modules follow the structure of the class:

| module | contents |
|---|---|
| `Results` | `Result` and `Traverse`, the "loop whose body may throw" combinator |
| `Extended` | `Ext`, the log-density values: negative infinity, a finite real, or positive infinity |
| `Statistics` | sum, mean and (sample) variance of a sequence, and their facts |
| `Mixture` | the estimator's fields: parameters, priors, assignments, counters |
| `Observations` | the loaded data and `printUniqueCount` |
| `Sampling` | the three `getRandomSamples` overloads |
| `Init` | `initializeEM` |
| `EStep` | `executeEStep` |
| `MStep` | `executeMStep` |
| `Iteration` | one EM iteration, as written and with the counters reset |

How things are modelled:
- Doubles are exact reals.
- The Gaussian log-density is a parameter of type `(Gaussian, real) -> Ext`. The model assumes only what the source tests about its results: finite, or infinite.
- Priors are kept as the ratios whose `Math.log` the source stores.
- `java.util.Random` is an oracle of raw draws, and `nextInt(b)` is a draw taken modulo `b`. Every slot (cluster, component) has its own oracle.
- The iteration order of `variableValues.entrySet()` is a parameter `order`. `EStep.Enumerates` requires it to list every variable once.
- A Java runtime exception becomes a `Failure`. Loops that may throw are `Traverse`, so the first failure in loop order is the one reported.

Three places where the model follows the code rather than the method's usual description:
- A value for which no component of a cluster has a finite log-density adds negative infinity to that cluster's score, not zero. `EStep.EvaluateCluster` states when this happens.
- A pool of two or more values is resampled not only when it is too small but also when its variance is zero, that is, when all its values are equal (`MStep.Fit`).
- The stored variance is passed to `NormalDistribution` as its standard deviation. That constructor throws unless the argument is positive. So the E-step throws as soon as any component's variance is not positive and some variable has a value (`EStep.Run`). A resampled Gaussian's variance is never checked, and it is zero when all the sampled values are equal, so the next E-step throws; "## Findings" records this with a corrected fit.

A pool with exactly one value gets prior `1 / total`, but its value is still counted in `total`. So a cluster's component priors sum to one exactly when none of its pools holds a single value (`MStep.ComponentPriorsSumToOne`).

## Model

| member | source | states |
|---|---|---|
| Results.Traverse | src/main/java/cluster/em/algo/PerClusterMOG.java:105-114 | a loop of throwing bodies succeeds iff every body does; on success it yields every body's value in order; on failure it reports the error of the first body that fails, all earlier ones having succeeded |
| Extended.GreaterIsStrictOrder | src/main/java/cluster/em/algo/PerClusterMOG.java:243 | the `>` comparison on log-densities, infinities included, is irreflexive, asymmetric, transitive and total on distinct values, which the running-maximum loop relies on |
| Statistics.VarianceNonNegative | src/main/java/cluster/em/algo/PerClusterMOG.java:284-288 | the sample variance of a non-empty sample is never negative |
| Statistics.VarianceNonPositiveIffAllSame | src/main/java/cluster/em/algo/PerClusterMOG.java:288 | for two or more values, the variance is at most zero exactly when all values are equal |
| Statistics.ConstantVarianceZero | src/main/java/cluster/em/algo/PerClusterMOG.java:290-291 | a non-empty sample whose values are all equal has variance zero |
| Statistics.MeanWithin | src/main/java/cluster/em/algo/PerClusterMOG.java:110-111 | the mean of a non-empty sample lies between any lower and upper bound of its values |
| Mixture.Slots | src/main/java/cluster/em/algo/PerClusterMOG.java:271-280 | the (cluster, component) pairs visited by the nested loops are exactly those with `1 <= i <= K` and `1 <= j <= componentCount[i]`, and each has Gaussian parameters |
| Mixture.RowMajorAppend | src/main/java/cluster/em/algo/PerClusterMOG.java:271-280 | appending cluster n's components 1..c to pairs of earlier clusters keeps the pairs ordered by cluster, then by component, each once |
| Mixture.SlotsUpToInLoopOrder | src/main/java/cluster/em/algo/PerClusterMOG.java:271-280 | the slots of clusters 1..n are listed by cluster, then by component, each once, and none belongs to a cluster after n |
| Mixture.SlotsInLoopOrder | src/main/java/cluster/em/algo/PerClusterMOG.java:271-280 | the slots are listed in the order of the nested `i`/`j` loops, each once, which fixes what "first failing slot" means |
| Mixture.Zeros | src/main/java/cluster/em/algo/PerClusterMOG.java:50 | `new int[K]`: K counters, all zero, summing to zero |
| Mixture.TotalCountIncrement | src/main/java/cluster/em/algo/PerClusterMOG.java:251 | incrementing one cluster's counter raises the counters' sum by exactly one |
| Observations.UniqueCountFilter | src/main/java/cluster/em/algo/PerClusterMOG.java:74-84 | corrected filter: a variable stays in the store iff it has at most 200 distinct values, keeping its values; every occurrence of a dropped name leaves the name list and every other name keeps all its occurrences; the extreme arrays are unchanged |
| Observations.UniqueCountFilterKeepsNamesLoaded | src/main/java/cluster/em/algo/PerClusterMOG.java:74-84 | after the corrected filter, every listed name still denotes a stored variable |
| Observations.UniqueCountFilterAsWritten | src/main/java/cluster/em/algo/PerClusterMOG.java:74-84 | filter as written: the store is filtered the same way, but each dropped name loses exactly one of its occurrences from the name list and every other name keeps all of its occurrences; the extreme arrays are kept |
| Observations.DuplicateNameSurvivesFilter | src/main/java/cluster/em/algo/PerClusterMOG.java:80 | a name listed twice whose variable is dropped stays listed once, with no variable behind it |
| Sampling.FromArray | src/main/java/cluster/em/algo/PerClusterMOG.java:130-137 | sampling from an array succeeds iff no draw is needed or the array is non-empty; the sample has the requested size and every element comes from the array |
| Sampling.DrawObservation | src/main/java/cluster/em/algo/PerClusterMOG.java:155-160 | one draw yields an observation of some listed, stored variable and always succeeds when every listed name has a stored, non-empty variable; it fails with `NoVariables` on an empty name list, and otherwise only when the drawn name is unknown or has no values, naming it |
| Sampling.FromObservations | src/main/java/cluster/em/algo/PerClusterMOG.java:153-162 | the sample has the requested size and every element is an observation of a listed variable; a non-empty sample fails only when the name list is empty or some listed name is unknown or has no values, with `NoVariables` on an empty list and otherwise the error of the first failing draw |
| Sampling.RandomSample | src/main/java/cluster/em/algo/PerClusterMOG.java:117-128 | the sample has SAMPLE_SIZE elements, all from the selected source; an extremes sample succeeds iff that array is non-empty |
| Sampling.Draw | src/main/java/cluster/em/algo/PerClusterMOG.java:117-128 | a whole `getRandomSamples()` call has SAMPLE_SIZE elements and cannot fail when both extreme arrays are non-empty, the name list is non-empty and every listed variable has values |
| Sampling.DuplicateNameBreaksSampling | src/main/java/cluster/em/algo/PerClusterMOG.java:80 | when the duplicated dropped name is the only listed name, after the filter as written every non-empty observation sample fails on that unknown name |
| Sampling.FilteredNamesNeverUnknown | src/main/java/cluster/em/algo/PerClusterMOG.java:158 | after the corrected filter, no draw fails on an unknown name |
| Init.GridUpTo | src/main/java/cluster/em/algo/PerClusterMOG.java:105-108 | the loops of `initializeEM` visit exactly the pairs with `1 <= i <= K` and `1 <= j <= C` |
| Init.GridInLoopOrder | src/main/java/cluster/em/algo/PerClusterMOG.java:105-108 | the pairs of `initializeEM` are listed in the order of its nested loops, each once, which fixes what "first failing draw" means |
| Init.Initial | src/main/java/cluster/em/algo/PerClusterMOG.java:98-115 | after initialisation, every cluster 1..K has C components, each with Gaussian parameters; nothing is assigned; the counters are zero |
| Init.UniformClusterRatios | src/main/java/cluster/em/algo/PerClusterMOG.java:100-107 | every cluster 1..K, and no other, gets the prior ratio 1/K, and for K > 0 these priors sum to one |
| Init.UniformComponentRatios | src/main/java/cluster/em/algo/PerClusterMOG.java:101-112 | every slot, and no other key, gets the prior ratio 1/C, and the priors of every cluster whose components 1..C are all slots sum to one |
| Init.UniformRowsSumToOne | src/main/java/cluster/em/algo/PerClusterMOG.java:101-112 | in a map giving each of its keys 1/C, every cluster with all components 1..C present has component priors summing to one |
| Init.InitialGaussians | src/main/java/cluster/em/algo/PerClusterMOG.java:109-111 | each component's initial Gaussian is the mean and variance of its own random sample |
| Init.InitialPriors | src/main/java/cluster/em/algo/PerClusterMOG.java:100-112 | the initial priors are 1/K for every cluster and 1/C for every component |
| Init.Initialize | src/main/java/cluster/em/algo/PerClusterMOG.java:98-115 | initialisation succeeds iff every component's sample does, and always does when every source is available; on failure it reports the first failing draw in loop order; on success it yields `Initial` |
| Init.InitialPriorsSumToOne | src/main/java/cluster/em/algo/PerClusterMOG.java:100-112 | the initial cluster priors sum to one, and so do each cluster's component priors |
| Init.FirstFailedDraw | src/main/java/cluster/em/algo/PerClusterMOG.java:105-111 | when the loop of draws fails, its error is that of the first failing draw in loop order |
| Init.UniformPriorsSumToOne | src/main/java/cluster/em/algo/PerClusterMOG.java:100-101 | K priors of 1/K sum to one, and so do C priors of 1/C |
| EStep.BestComponent | src/main/java/cluster/em/algo/PerClusterMOG.java:221-238 | the loop over components skips infinite log-densities and yields the first component with the greatest finite one, or -1 with negative infinity when none is finite |
| EStep.BestFiniteIsUnique | src/main/java/cluster/em/algo/PerClusterMOG.java:221-238 | that description fixes the choice uniquely |
| EStep.SelectCluster | src/main/java/cluster/em/algo/PerClusterMOG.java:210-248 | the loop over clusters, replacing only on a strictly greater score, yields the first cluster with the greatest score, or -1 when every score is negative infinity |
| EStep.Distinct | src/main/java/cluster/em/algo/PerClusterMOG.java:217-220 | the values evaluated are exactly the variable's values, each once |
| EStep.DistinctFirstOccurrenceOrder | src/main/java/cluster/em/algo/PerClusterMOG.java:217-220 | the distinct values come in order of first occurrence: a value listed before another first occurs in the variable's values before any occurrence of the later one |
| EStep.ScanValues | src/main/java/cluster/em/algo/PerClusterMOG.java:217-242 | `tempComponents` maps each value to its chosen component; the score is negative infinity iff some value's best score is negative infinity |
| EStep.ScanScoresDistinctValues | src/main/java/cluster/em/algo/PerClusterMOG.java:217-242 | a cluster's score counts each distinct value exactly once |
| EStep.EvaluateCluster | src/main/java/cluster/em/algo/PerClusterMOG.java:213-242 | cluster i maps each value to the component chosen for it, and scores negative infinity exactly when some value has no finite log-density under any of its components |
| EStep.ChooseComponent | src/main/java/cluster/em/algo/PerClusterMOG.java:221-238 | the component chosen for a value is the first one with the greatest finite log-density, or -1; its score is never positive infinity |
| EStep.Decide | src/main/java/cluster/em/algo/PerClusterMOG.java:208-249 | a variable stays unassigned iff every cluster scores negative infinity; otherwise it goes to the first cluster with the greatest score, with that cluster's component choices |
| EStep.Record | src/main/java/cluster/em/algo/PerClusterMOG.java:249-263 | an unassigned variable changes nothing; an assigned one is mapped to its cluster, whose counter alone grows, by one |
| EStep.RecordPools | src/main/java/cluster/em/algo/PerClusterMOG.java:252-259 | recording touches only the winner's pools and appends to pool j the distinct values chosen for j |
| EStep.Chosen | src/main/java/cluster/em/algo/PerClusterMOG.java:252-258 | the values appended to the pool of component j are exactly the variable's values chosen for j |
| EStep.ChosenOnce | src/main/java/cluster/em/algo/PerClusterMOG.java:252-258 | over distinct values, every value chosen for j appears exactly once among them |
| EStep.AppendChoices | src/main/java/cluster/em/algo/PerClusterMOG.java:252-259 | appending a cluster's choices leaves the pools of other clusters and of component -1 unchanged, and extends pool j of the cluster by the values chosen for j |
| EStep.RecordComponents | src/main/java/cluster/em/algo/PerClusterMOG.java:252-254 | each value with a chosen component is mapped to it; earlier entries of the variable survive otherwise; other variables are untouched |
| EStep.RecordAppendsEachValueOnce | src/main/java/cluster/em/algo/PerClusterMOG.java:252-259 | each distinct value goes exactly once into the pool of its chosen component, and no other value goes there |
| EStep.RecordAllCounts | src/main/java/cluster/em/algo/PerClusterMOG.java:208-251 | after the variable loop, each counter has grown by the number of variables decided for its cluster |
| EStep.Decisions | src/main/java/cluster/em/algo/PerClusterMOG.java:208-248 | every variable of the store gets the decision `executeEStep` makes for it, and each decision fits the variable and the cluster count |
| EStep.RecordAll | src/main/java/cluster/em/algo/PerClusterMOG.java:208-263 | recording the decisions of all variables in loop order keeps the number of counters |
| EStep.Tally | src/main/java/cluster/em/algo/PerClusterMOG.java:251 | the number of variables decided for one cluster never exceeds the number decided for any cluster, which never exceeds the number of variables |
| EStep.AssignedTally | src/main/java/cluster/em/algo/PerClusterMOG.java:249-251 | the number of assigned variables never exceeds the number of variables |
| EStep.EnumerationSize | src/main/java/cluster/em/algo/PerClusterMOG.java:208 | an iteration order that lists every variable once has as many entries as there are variables |
| EStep.RecordAllTotal | src/main/java/cluster/em/algo/PerClusterMOG.java:208-251 | the counters together grow by the number of variables assigned |
| EStep.RecordAllClusters | src/main/java/cluster/em/algo/PerClusterMOG.java:208-250 | a variable is mapped to a cluster iff it was before or it was assigned now, and then to its decided cluster |
| EStep.AssignedTallyFull | src/main/java/cluster/em/algo/PerClusterMOG.java:249-263 | the assigned tally equals the number of variables iff every variable is assigned |
| EStep.Contributors | src/main/java/cluster/em/algo/PerClusterMOG.java:252-258 | the number of variables decided for cluster c that chose component j for value v never exceeds the cluster's tally |
| EStep.RecordAddsToPool | src/main/java/cluster/em/algo/PerClusterMOG.java:252-258 | recording one variable adds one copy of v to pool (c, j), j ≠ -1, exactly when it is assigned to c and chose j for v, and leaves the pools of component -1 unchanged |
| EStep.RecordAllPools | src/main/java/cluster/em/algo/PerClusterMOG.java:208-263 | over the variable loop, each pool (c, j) with j ≠ -1 gains one copy of v per variable decided for c that chose j for v, and the pools of component -1 are unchanged |
| EStep.RecordAllComponents | src/main/java/cluster/em/algo/PerClusterMOG.java:208-254 | over the variable loop, a variable that is not assigned keeps its value-to-component entries, and an assigned one maps each value with a chosen component to that component |
| EStep.RecordAllComponentsFrom | src/main/java/cluster/em/algo/PerClusterMOG.java:206-254 | the same for a loop over every variable of the decisions, starting from an empty cluster map |
| EStep.StepValueComponents | src/main/java/cluster/em/algo/PerClusterMOG.java:206-254 | after `executeEStep`, each assigned variable maps each value with a chosen component to it, and every other variable's entries are unchanged |
| EStep.Step | src/main/java/cluster/em/algo/PerClusterMOG.java:206-265 | `executeEStep` maps exactly the assigned variables to their decided clusters, grows each counter by its cluster's tally and the total by at most the number of variables, adds to each pool (c, j) with j ≠ -1 one copy of value v per variable decided for c that chose j for v, and leaves the pools of component -1 unchanged |
| EStep.FirstDegenerate | src/main/java/cluster/em/algo/PerClusterMOG.java:224-226 | finds the first slot in loop order whose variance is not positive |
| EStep.Run | src/main/java/cluster/em/algo/PerClusterMOG.java:206-265 | the E-step throws iff some component's variance is not positive and some variable has a value, naming the first such component in loop order; otherwise it is `Step` |
| EStep.DegenerateSlotFails | src/main/java/cluster/em/algo/PerClusterMOG.java:224-226 | any slot with a non-positive variance makes the E-step throw once some variable has a value |
| MStep.KeptIffSpread | src/main/java/cluster/em/algo/PerClusterMOG.java:282-288 | "more than one value and positive variance" holds exactly when the pool has two different values |
| MStep.Fit | src/main/java/cluster/em/algo/PerClusterMOG.java:280-301 | a component keeps its pool's mean and (positive) variance iff the pool has two different values; otherwise it takes the sample's, failing exactly when the draw fails; a fitted variance is never negative |
| MStep.ConstantResampleDegenerates | src/main/java/cluster/em/algo/PerClusterMOG.java:288-299 | as written, a component refitted to a sample whose values are all equal gets that sample's estimate, with variance zero |
| MStep.GuardedFit | src/main/java/cluster/em/algo/PerClusterMOG.java:280-301 | corrected fit: it fails exactly when the source's fit does, agrees with it whenever that fit has a positive variance, otherwise keeps the previous Gaussian, so a positive previous variance stays positive |
| MStep.GuardedGaussians | src/main/java/cluster/em/algo/PerClusterMOG.java:271-301 | corrected M-step Gaussians: if every slot's variance was positive before the step it is positive after it, every refit with a positive variance is taken as the source takes it, and other keys are kept |
| MStep.ConstantResampleInStep | src/main/java/cluster/em/algo/PerClusterMOG.java:288-299 | as written, an M-step that refits a slot to a sample without spread leaves that slot with variance zero |
| MStep.ClusterRatio | src/main/java/cluster/em/algo/PerClusterMOG.java:270-272 | a cluster prior `(count + 1) / (variables + K)` is positive |
| MStep.ClusterRatios | src/main/java/cluster/em/algo/PerClusterMOG.java:270-272 | the smoothed cluster priors for K counters sum to at most one iff the counters total at most the number of variables, and to one iff they total exactly that |
| MStep.ComponentRatio | src/main/java/cluster/em/algo/PerClusterMOG.java:295-300 | a component prior is positive |
| MStep.ClusterTotal | src/main/java/cluster/em/algo/PerClusterMOG.java:273-278 | `clusterVariableValuesTotal` is at least the component count |
| MStep.Refitted | src/main/java/cluster/em/algo/PerClusterMOG.java:267-303 | a component whose pool has two different values gets the pool's mean and a positive variance, every other component the mean and variance of its own sample, and no fitted variance is negative; the cluster priors sum to at most one iff the counters total at most the number of variables, and to one iff exactly that; component priors exist exactly for the components, with `Weight(size) / total` |
| MStep.Step | src/main/java/cluster/em/algo/PerClusterMOG.java:267-311 | the M-step succeeds iff every component's fit does, and always does when every source is available; a failure is the first failing resample in loop order; on success the parameters are `Refitted`, the pools emptied and the rest kept |
| MStep.FirstFailedFit | src/main/java/cluster/em/algo/PerClusterMOG.java:280-301 | when the loop of refits fails, its error is that of the first failing refit in loop order |
| MStep.ComponentPriorsSumToOne | src/main/java/cluster/em/algo/PerClusterMOG.java:273-300 | a cluster's new component priors sum to one exactly when none of its pools holds a single value |
| MStep.Singletons | src/main/java/cluster/em/algo/PerClusterMOG.java:282-300 | the number of pools that hold exactly one value is at most the number of components |
| MStep.ComponentPriorSumValue | src/main/java/cluster/em/algo/PerClusterMOG.java:274-300 | the component priors of a cluster sum to (components + pooled values - single-value pools) / total |
| MStep.ComponentWeightsSumToOne | src/main/java/cluster/em/algo/PerClusterMOG.java:274-300 | with total = components + pooled values, the component priors sum to one exactly when no pool holds a single value |
| MStep.ClusterPriorSumValue | src/main/java/cluster/em/algo/PerClusterMOG.java:270-272 | the cluster priors sum to (total count + K) / (variables + K) |
| MStep.ClusterPriorsSum | src/main/java/cluster/em/algo/PerClusterMOG.java:270-272 | the new cluster priors sum to at most one iff the counters total at most the number of variables, and to one iff they total exactly that |
| Iteration.Cycle | src/main/java/cluster/em/algo/PerClusterMOG.java:86-92 | an iteration succeeds iff the E-step and then the M-step on its result succeed, and then yields the M-step's result; it fails with `Degenerate` iff the E-step throws, naming the E-step's slot, and with `DrawFailed` only when the E-step succeeded and the M-step failed, with the M-step's error |
| Iteration.IterateAsWritten | src/main/java/cluster/em/algo/PerClusterMOG.java:50 | as written, the counters after an iteration total the earlier total plus the variables assigned in this one |
| Iteration.Iterate | src/main/java/cluster/em/algo/PerClusterMOG.java:206-251 | with the counters reset, they total exactly the variables assigned in this iteration |
| Iteration.IteratePriorsSumToOne | src/main/java/cluster/em/algo/PerClusterMOG.java:270-272 | with the counters reset, the cluster priors sum to at most one, and to one iff every variable is assigned |
| Iteration.FiniteDensityAssignsAll | src/main/java/cluster/em/algo/PerClusterMOG.java:243-250 | under any log-density that is finite everywhere, every variable is assigned as soon as some cluster has at least one component |
| Iteration.FiniteDensityAssignsEvery | src/main/java/cluster/em/algo/PerClusterMOG.java:243-251 | under any log-density that is finite everywhere, with at least one cluster and a component in cluster 1, the E-step's loop assigns every variable, so it counts exactly as many assignments as there are variables |
| Iteration.PriorsExceedOneAsWritten | src/main/java/cluster/em/algo/PerClusterMOG.java:251 | as written, starting from zero counters and with at least one variable, two successful iterations under any log-density that is finite everywhere (so both assign every variable) leave cluster priors summing to more than one |
| Iteration.SecondIterationExceedsOne | src/main/java/cluster/em/algo/PerClusterMOG.java:251-272 | under any log-density that is finite everywhere, a second successful iteration as written, after one from zero counters, leaves cluster priors summing to more than one |
| Iteration.AsWrittenPriorSum | src/main/java/cluster/em/algo/PerClusterMOG.java:251-272 | an iteration as written leaves cluster priors summing to at most one iff the carried-over counters plus this iteration's assignments total at most the number of variables |
| Iteration.AccumulationExample | src/main/java/cluster/em/algo/PerClusterMOG.java:251 | on a one-cluster, one-variable example, two iterations as written both succeed and leave cluster priors summing to more than one |
| Iteration.CorrectedExample | src/main/java/cluster/em/algo/PerClusterMOG.java:251 | on the same example, an iteration whose counters start at zero succeeds and leaves cluster priors summing to exactly one |
| Iteration.ExampleDrawsSucceed | src/main/java/cluster/em/algo/PerClusterMOG.java:119-121 | with every draw equal to 1, `getRandomSamples()` reads the low extremes, so it succeeds on any data whose low extremes are non-empty |
| Iteration.CycleSucceeds | src/main/java/cluster/em/algo/PerClusterMOG.java:86-92 | an iteration succeeds when its E-step does and every random draw would |
| Iteration.ExampleSampleConstant | src/main/java/cluster/em/algo/PerClusterMOG.java:119-137 | with every draw equal to 1 and any non-empty low extremes, every `getRandomSamples()` call succeeds with a sample that repeats the low extreme at position 1 mod their length, so its values are all equal |
| Iteration.DegenerateResampleBreaksNextEStep | src/main/java/cluster/em/algo/PerClusterMOG.java:224-299 | as written, when a slot with no spread in its pool is refitted to a sample whose values are all equal and some variable has a value, the M-step leaves that slot with variance zero and the next E-step throws |
| Iteration.ExampleStep | src/main/java/cluster/em/algo/PerClusterMOG.java:86-92 | on the one-cluster example an iteration, with or without the counter reset, succeeds and keeps one cluster with one component |

## Left out

- Reading the variable-name file and the per-variable files, copying files, and creating directories (lines 164-204) are left out, because they are file I/O. The model starts from the loaded `Data`: the store, the name list, and the two extreme arrays.
- `Double.parseDouble` and the NaN/infinity filter on load are left out. The model's observations are already finite reals.
- The `minimum_value` and `maximum_value` tracking is left out, because nothing in the core reads it.
- The two `MinMaxPriorityQueue`s are reduced to their contents as arrays, `low` and `high`. Keeping the 10 000 extreme values is not modelled.
- `getTopOrBottomValues` is left out, because nothing calls it.
- The commons-math `NormalDistribution.logDensity` is a parameter. `Math.log` of the priors is left out, because the ratios are kept. IEEE rounding, NaN, and signed zero (`0.0` and `-0.0` are distinct `Double` keys) are left out.
- `java.util.Random` is replaced by oracles. The seeding and the distribution of the draws are not modelled.
- The iteration order of Java's `HashMap` is left out. The variable order is a parameter. Pools are appended in the order of each variable's distinct values, not in the order of `selectedComponents.entrySet()`, so the order inside a pool may differ from the source. Only pool contents and sizes matter to the M-step.
- `main`, `execute`, the console output, and `currentIteration` are left out.
- `isConverged` always returns false, so the source's loop never ends. The model states single iterations, not the unbounded loop.
- The partial state left behind when a step throws is left out. A `Failure` carries only the error.
- The counter array always has `CLUSTER_COUNT` entries, even when `initializeEM` is called with another cluster count. The model sizes the counters by the cluster count, as the only call site (with `CLUSTER_COUNT`) does.
- `variableValueComponents` is keyed in the source by the string `name + "_" + value`. `Double.toString` never produces `_`, so the last `_` separates the name from the value and the string key is equivalent to keying by variable, then by value, as the model does. Only the differences between `Double` and real listed above (signed zero, NaN) are lost.
- Init.Initialize: an initial sample whose values are all equal gives a component variance zero, as a resample does in the M-step, and the first E-step then throws. There is no earlier Gaussian to fall back on, so the model has no corrected initialisation; `EStep.Run` reports the degenerate slot.
- MStep.Step: it models the fit as written (`MStep.Fit`). The corrected `MStep.GuardedFit` and `MStep.GuardedGaussians` are stated alongside it and are not wired into the iteration, whose contracts describe the source.
- Iteration.IterateAsWritten: the counters are unbounded naturals. The source's `int` counters (line 50, incremented at line 251) wrap to negative values after about 2^31 increments, which the never-ending loop (lines 87-95) eventually reaches, so the claimed total holds in the source only until then.
- `Iteration.Iterate`: it resets the counters at the start of the E-step, which the source does not do. The as-written behaviour is `Iteration.IterateAsWritten`.

## Findings

| source | as written | input that shows it | evidently intended | confidence | as-written member | corrected member |
|---|---|---|---|---|---|---|
| src/main/java/cluster/em/algo/PerClusterMOG.java:50 | `clusterVariableCount` is allocated once and only ever incremented (line 251), so each E-step adds to the previous iterations' counts | one cluster; one listed variable with no observations; a second variable with the 201 distinct values 0.0 to 200.0, which the filter dropped after loading had put its values into both extreme arrays; every draw 1, so all samples come from the low extremes: after two iterations the cluster prior is (2 + 1) / (1 + 1) = 3/2 | the counters count this iteration's assignments, so the smoothed cluster priors sum to at most one | not executed | Iteration.PriorsExceedOneAsWritten | Iteration.IteratePriorsSumToOne |
| src/main/java/cluster/em/algo/PerClusterMOG.java:80 | `variableNameList.remove(name)` removes only the first occurrence of a dropped name | a name listed twice whose variable has more than 200 distinct values: one copy stays listed, and any observation sample that picks it throws a `NullPointerException` | every occurrence of a dropped name leaves the list, so every listed name has a variable | not executed | Observations.DuplicateNameSurvivesFilter | Observations.UniqueCountFilter |
| src/main/java/cluster/em/algo/PerClusterMOG.java:297-299 | a component refitted to a fresh sample (lines 289-291 and 297-299) takes the sample's variance unchecked, so a sample whose values are all equal gives variance 0.0, and the next E-step's `new NormalDistribution(mean, 0.0)` at line 226 throws `NotStrictlyPositiveException`, which nothing catches | a component whose pool has at most one value, every draw equal to 1 so the sample repeats one entry of the (non-empty) low extremes, and one variable with a value: the M-step sets variance 0.0 and the next E-step throws | a non-positive variance never survives an M-step; a degenerate fresh sample is rejected and the component keeps its previous Gaussian | not executed | Iteration.DegenerateResampleBreaksNextEStep | MStep.GuardedGaussians |

=== FILE: estep.dfy ===
/** `executeEStep`: for every variable, the best component per distinct value
    in each cluster, the best cluster by summed log-density, and the
    bookkeeping for the winner. */
module EStep {
  import opened Results
  import opened Extended
  import opened Mixture

  /** The outcome of a running-maximum loop: the 1-based position of the
      winning component or cluster (-1 for none) and its log-density. */
  datatype Choice = Choice(index: int, score: Ext)

  /** `c` is what the inner loop over components must produce for the
      log-densities `scores` (component `j` at index `j - 1`): the
      lowest-index component whose finite score is the greatest finite score,
      or -1 with score negative infinity when no score is finite. */
  predicate IsBestFinite(scores: seq<Ext>, c: Choice) {
    && (c.index == -1 <==> forall k :: 0 <= k < |scores| ==> !scores[k].Fin?)
    && (c.index == -1 ==> c.score == NegInf)
    && (c.index != -1 ==>
          && 1 <= c.index <= |scores|
          && scores[c.index - 1].Fin?
          && c.score == scores[c.index - 1]
          && (forall k :: 0 <= k < |scores| && scores[k].Fin? ==> scores[k].value <= c.score.value)
          && (forall k :: 0 <= k < c.index - 1 && scores[k].Fin? ==> scores[k].value < c.score.value))
  }

  /** The loop over components j = 1..C: an infinite log-density is skipped,
      and a finite one replaces the current best only when strictly greater. */
  function BestComponent(scores: seq<Ext>): (c: Choice)
    ensures IsBestFinite(scores, c)
  {
    if |scores| == 0 then Choice(-1, NegInf)
    else
      var best := BestComponent(scores[..|scores| - 1]);
      var last := scores[|scores| - 1];
      if last.Fin? && Greater(last, best.score) then Choice(|scores|, last) else best
  }

  /** At most one choice fits the description, so `BestComponent` is it. */
  lemma BestFiniteIsUnique(scores: seq<Ext>, c1: Choice, c2: Choice)
    requires IsBestFinite(scores, c1) && IsBestFinite(scores, c2)
    ensures c1 == c2
  {
  }

  /** `c` is what the loop over clusters must produce for the cluster scores
      `scores` (cluster `i` at index `i - 1`), starting from negative
      infinity and replacing only on a strictly greater score: the first
      cluster with the greatest score, or -1 when every score is negative
      infinity. */
  predicate IsFirstGreatest(scores: seq<Ext>, c: Choice) {
    && (c.index == -1 <==> forall k :: 0 <= k < |scores| ==> scores[k] == NegInf)
    && (c.index == -1 ==> c.score == NegInf)
    && (c.index != -1 ==>
          && 1 <= c.index <= |scores|
          && c.score == scores[c.index - 1]
          && c.score != NegInf
          && (forall k :: 0 <= k < |scores| ==> !Greater(scores[k], c.score))
          && (forall k :: 0 <= k < c.index - 1 ==> Greater(c.score, scores[k])))
  }

  /** The loop over clusters i = 1..K. */
  function SelectCluster(scores: seq<Ext>): (c: Choice)
    ensures IsFirstGreatest(scores, c)
  {
    if |scores| == 0 then Choice(-1, NegInf)
    else
      var best := SelectCluster(scores[..|scores| - 1]);
      var last := scores[|scores| - 1];
      forall k | 0 <= k < |scores| - 1 {
        GreaterIsStrictOrder(scores[k], best.score, last);
      }
      if Greater(last, best.score) then Choice(|scores|, last) else best
  }

  /** The variable's values with repeats removed, in order of first
      occurrence (`DistinctFirstOccurrenceOrder`); the values the inner loop
      does not `continue` past. */
  function Distinct(values: seq<real>): (d: seq<real>)
    ensures forall v :: v in d <==> v in values
    ensures forall i, j :: 0 <= i < j < |d| ==> d[i] != d[j]
  {
    if |values| == 0 then []
    else
      var prefix := Distinct(values[..|values| - 1]);
      var last := values[|values| - 1];
      assert forall v :: v in values <==> v in values[..|values| - 1] || v == last;
      if last in prefix then prefix else prefix + [last]
  }

  /** `Distinct` lists each value where it first occurs: wherever a later
      entry occurs in `values`, every earlier entry has already occurred. */
  lemma {:induction false} DistinctFirstOccurrenceOrder(values: seq<real>)
    ensures forall i, j, k ::
              0 <= i < j < |Distinct(values)| && 0 <= k < |values| && values[k] == Distinct(values)[j]
              ==> Distinct(values)[i] in values[..k]
  {
    if |values| > 0 {
      var prefix := values[..|values| - 1];
      var last := values[|values| - 1];
      DistinctFirstOccurrenceOrder(prefix);
      var sofar := Distinct(prefix);
      var d := Distinct(values);
      assert d == if last in sofar then sofar else sofar + [last];
      forall i, j, k | 0 <= i < j < |d| && 0 <= k < |values| && values[k] == d[j]
        ensures d[i] in values[..k]
      {
        assert d[i] == sofar[i] && sofar[i] in prefix;
        if k < |prefix| {
          assert values[..k] == prefix[..k];
          assert prefix[k] == values[k];
          if j < |sofar| {
            assert d[j] == sofar[j];
          }
        } else {
          assert values[..k] == prefix;
        }
      }
    }
  }

  /** A cluster's verdict on one variable: its score and `tempComponents`. */
  datatype ClusterEval = ClusterEval(score: Ext, components: map<real, int>)

  /** The loop over a variable's values in one cluster. A value already in
      `tempComponents` is skipped; otherwise its choice is recorded and its
      score added to the running sum, which starts at 0. */
  function ScanValues(values: seq<real>, choose: real -> Choice): (r: ClusterEval)
    requires forall v :: v in values ==> !choose(v).score.PosInf?
    ensures forall v :: v in r.components <==> v in values
    ensures forall v :: v in values ==> r.components[v] == choose(v).index
    ensures !r.score.PosInf?
    ensures r.score == NegInf <==> exists v :: v in values && choose(v).score == NegInf
  {
    if |values| == 0 then ClusterEval(Fin(0.0), map[])
    else
      var prefix := values[..|values| - 1];
      var last := values[|values| - 1];
      assert forall v :: v in values <==> v in prefix || v == last;
      var sofar := ScanValues(prefix, choose);
      if last in sofar.components then sofar
      else
        var c := choose(last);
        ClusterEval(Add(sofar.score, c.score), sofar.components[last := c.index])
  }

  /** The sum of the scores of `ds`, starting from 0. */
  function ScoreSum(ds: seq<real>, choose: real -> Choice): (r: Ext)
    requires forall v :: v in ds ==> !choose(v).score.PosInf?
    ensures !r.PosInf?
  {
    if |ds| == 0 then Fin(0.0)
    else
      var prefix := ds[..|ds| - 1];
      var last := ds[|ds| - 1];
      assert forall v :: v in ds <==> v in prefix || v == last;
      Add(ScoreSum(prefix, choose), choose(last).score)
  }

  /** A cluster's score counts each distinct value exactly once. */
  lemma {:induction false} ScanScoresDistinctValues(values: seq<real>, choose: real -> Choice)
    requires forall v :: v in values ==> !choose(v).score.PosInf?
    ensures ScanValues(values, choose).score == ScoreSum(Distinct(values), choose)
  {
    if |values| > 0 {
      var prefix := values[..|values| - 1];
      assert forall v :: v in prefix ==> v in values;
      ScanScoresDistinctValues(prefix, choose);
      var d := Distinct(prefix);
      var last := values[|values| - 1];
      if last !in prefix {
        assert (d + [last])[..|d|] == d;
      }
    }
  }

  /** The log-densities of `v` under the components of cluster `i`. */
  function ComponentScores(p: Parameters, density: LogDensity, i: int, v: real): (r: seq<Ext>)
    requires Configured(p) && 1 <= i <= p.clusterCount
    ensures |r| == p.componentCount[i]
    ensures forall j :: 1 <= j <= p.componentCount[i] ==> r[j - 1] == density(p.gaussians[(i, j)], v)
  {
    seq(p.componentCount[i], j requires 0 <= j < p.componentCount[i] => density(p.gaussians[(i, j + 1)], v))
  }

  /** The component cluster `i` chooses for the value `v`. */
  function ChooseComponent(p: Parameters, density: LogDensity, i: int, v: real): (c: Choice)
    requires Configured(p) && 1 <= i <= p.clusterCount
    ensures IsBestFinite(ComponentScores(p, density, i, v), c)
    ensures !c.score.PosInf?
  {
    BestComponent(ComponentScores(p, density, i, v))
  }

  /** Cluster `i`'s score and component choices for a variable's values. */
  function EvaluateCluster(p: Parameters, density: LogDensity, i: int, values: seq<real>): (r: ClusterEval)
    requires Configured(p) && 1 <= i <= p.clusterCount
    ensures forall v :: v in values ==> v in r.components && r.components[v] == ChooseComponent(p, density, i, v).index
    ensures !r.score.PosInf?
    ensures r.score == NegInf <==>
              exists v :: v in values && ChooseComponent(p, density, i, v).index == -1
  {
    ScanValues(values, v => ChooseComponent(p, density, i, v))
  }

  /** Cluster `i` records a component for the variable's values and nothing else. */
  lemma EvaluateClusterKeys(p: Parameters, density: LogDensity, i: int, values: seq<real>)
    requires Configured(p) && 1 <= i <= p.clusterCount
    ensures forall v :: v in EvaluateCluster(p, density, i, values).components <==> v in values
  {
  }

  /** The outcome for one variable: no cluster, or the winner and its
      value-to-component choices. */
  datatype Decision = Unassigned | Assigned(cluster: int, components: map<real, int>)

  /** The scores of clusters 1..K for a variable. */
  function ClusterScores(p: Parameters, density: LogDensity, values: seq<real>): (r: seq<Ext>)
    requires Configured(p)
    ensures |r| == p.clusterCount
    ensures forall i :: 1 <= i <= p.clusterCount ==> r[i - 1] == EvaluateCluster(p, density, i, values).score
  {
    ScoresUpTo(p, density, values, p.clusterCount)
  }

  /** The scores of clusters 1..n, cluster i at position i - 1. */
  function ScoresUpTo(p: Parameters, density: LogDensity, values: seq<real>, n: nat): (r: seq<Ext>)
    requires Configured(p) && n <= p.clusterCount
    ensures |r| == n
    ensures forall i :: 1 <= i <= n ==> r[i - 1] == EvaluateCluster(p, density, i, values).score
  {
    if n == 0 then [] else ScoresUpTo(p, density, values, n - 1) + [EvaluateCluster(p, density, n, values).score]
  }

  /** The per-variable body of `executeEStep`. */
  function Decide(p: Parameters, density: LogDensity, values: seq<real>): (r: Decision)
    requires Configured(p)
    ensures r.Unassigned? <==>
              forall i :: 1 <= i <= p.clusterCount ==> EvaluateCluster(p, density, i, values).score == NegInf
    ensures r.Assigned? ==>
              && 1 <= r.cluster <= p.clusterCount
              && r.components == EvaluateCluster(p, density, r.cluster, values).components
              && IsFirstGreatest(ClusterScores(p, density, values),
                                 Choice(r.cluster, EvaluateCluster(p, density, r.cluster, values).score))
  {
    var scores := ClusterScores(p, density, values);
    var sel := SelectCluster(scores);
    if sel.index == -1 then Unassigned
    else Assigned(sel.index, EvaluateCluster(p, density, sel.index, values).components)
  }

  predicate NoDuplicates<T(==)>(s: seq<T>) {
    forall i, j :: 0 <= i < j < |s| ==> s[i] != s[j]
  }

  /** The values of `vs` whose chosen component is `j`, in order. */
  function Chosen(vs: seq<real>, comps: map<real, int>, j: int): (r: seq<real>)
    requires forall v :: v in vs ==> v in comps
    ensures forall v :: v in r <==> v in vs && comps[v] == j
  {
    if |vs| == 0 then []
    else
      var prefix := vs[..|vs| - 1];
      var last := vs[|vs| - 1];
      assert forall v :: v in vs <==> v in prefix || v == last;
      if comps[last] == j then Chosen(prefix, comps, j) + [last] else Chosen(prefix, comps, j)
  }

  /** Over distinct values, every value chosen for `j` occurs exactly once. */
  lemma {:induction false} ChosenOnce(vs: seq<real>, comps: map<real, int>, j: int)
    requires forall v :: v in vs ==> v in comps
    requires NoDuplicates(vs)
    ensures forall v :: multiset(Chosen(vs, comps, j))[v] == if v in vs && comps[v] == j then 1 else 0
  {
    if |vs| > 0 {
      var prefix := vs[..|vs| - 1];
      var last := vs[|vs| - 1];
      assert forall v :: v in vs <==> v in prefix || v == last;
      ChosenOnce(prefix, comps, j);
      assert last !in prefix;
    }
  }

  /** The loop over `selectedComponents`: each value whose component is not
      -1 is appended to the pool of (`c`, its component). */
  function AppendChoices(pools: map<Key, seq<real>>, c: int, vs: seq<real>, comps: map<real, int>)
    : (r: map<Key, seq<real>>)
    requires forall v :: v in vs ==> v in comps
    ensures forall k: Key :: k.0 != c || k.1 == -1 ==> PoolAt(r, k) == PoolAt(pools, k)
    ensures forall j :: j != -1 ==> PoolAt(r, (c, j)) == PoolAt(pools, (c, j)) + Chosen(vs, comps, j)
  {
    if |vs| == 0 then pools
    else
      var prefix := vs[..|vs| - 1];
      var last := vs[|vs| - 1];
      assert forall v :: v in vs <==> v in prefix || v == last;
      var sofar := AppendChoices(pools, c, prefix, comps);
      var j := comps[last];
      if j == -1 then sofar
      else
        ghost var before := PoolAt(pools, (c, j));
        assert before + Chosen(prefix, comps, j) + [last] == before + (Chosen(prefix, comps, j) + [last]);
        sofar[(c, j) := PoolAt(sofar, (c, j)) + [last]]
  }

  /** `d` is a decision `Record` can take for a variable with observations
      `values` among `clusterCount` clusters. */
  ghost predicate Fits(d: Decision, values: seq<real>, clusterCount: nat) {
    d.Assigned? ==> 1 <= d.cluster <= clusterCount && forall v :: v in d.components <==> v in values
  }

  /** The value components recorded so far for the variable `name`. */
  function ValueComponentsOf(a: Assignment, name: string): map<real, int> {
    if name in a.valueComponents then a.valueComponents[name] else map[]
  }

  /** Records a decision for the variable `name` with observations `values`:
      an unassigned variable changes nothing; a winner is mapped to its
      cluster and only that cluster's counter grows, by one. */
  function Record(a: Assignment, name: string, values: seq<real>, d: Decision): (r: Assignment)
    requires d.Assigned? ==> 1 <= d.cluster <= |a.counts| && forall v :: v in d.components <==> v in values
    ensures |r.counts| == |a.counts|
    ensures d.Unassigned? ==> r == a
    ensures d.Assigned? ==>
              && r.variableClusters == a.variableClusters[name := d.cluster]
              && r.counts[d.cluster - 1] == a.counts[d.cluster - 1] + 1
              && (forall i :: 0 <= i < |a.counts| && i != d.cluster - 1 ==> r.counts[i] == a.counts[i])
  {
    match d
    case Unassigned => a
    case Assigned(c, comps) =>
      var ds := Distinct(values);
      assert forall v :: v in ds ==> v in values && v in comps;
      var recorded := map v | v in ds && comps[v] != -1 :: comps[v];
      Assignment(
        a.variableClusters[name := c],
        a.valueComponents[name := ValueComponentsOf(a, name) + recorded],
        AppendChoices(a.pools, c, ds, comps),
        a.counts[c - 1 := a.counts[c - 1] + 1])
  }

  /** Recording a winner touches only the pools of its cluster, appending to
      pool j the distinct values whose chosen component is j. */
  lemma RecordPools(a: Assignment, name: string, values: seq<real>, d: Decision)
    requires d.Assigned? && Fits(d, values, |a.counts|)
    ensures var r := Record(a, name, values, d);
            && (forall k: Key :: k.0 != d.cluster || k.1 == -1 ==> PoolAt(r.pools, k) == PoolAt(a.pools, k))
            && (forall j :: j != -1 ==>
                  PoolAt(r.pools, (d.cluster, j))
                  == PoolAt(a.pools, (d.cluster, j)) + Chosen(Distinct(values), d.components, j))
  {
    var ds := Distinct(values);
    assert forall v :: v in ds ==> v in values && v in d.components;
    assert Record(a, name, values, d).pools == AppendChoices(a.pools, d.cluster, ds, d.components);
  }

  /** Recording a winner keeps every value component recorded before,
      except that each of the variable's values with a chosen component now
      maps to that component; other variables are untouched. */
  lemma RecordComponents(a: Assignment, name: string, values: seq<real>, d: Decision)
    requires d.Assigned? && Fits(d, values, |a.counts|)
    ensures var r := Record(a, name, values, d);
            && (forall n :: n != name ==> ValueComponentsOf(r, n) == ValueComponentsOf(a, n))
            && (forall v :: v in values && d.components[v] != -1 ==>
                  v in ValueComponentsOf(r, name) && ValueComponentsOf(r, name)[v] == d.components[v])
            && (forall v :: v in ValueComponentsOf(a, name) && (v !in values || d.components[v] == -1) ==>
                  v in ValueComponentsOf(r, name) && ValueComponentsOf(r, name)[v] == ValueComponentsOf(a, name)[v])
            && (forall v :: v in ValueComponentsOf(r, name) ==> v in ValueComponentsOf(a, name) || v in values)
  {
    var comps := d.components;
    var ds := Distinct(values);
    assert forall v :: v in ds ==> v in values && v in comps;
    assert forall v :: v in values ==> v in ds;
    var recorded := map v | v in ds && comps[v] != -1 :: comps[v];
    var r := Record(a, name, values, d);
    assert r.valueComponents == a.valueComponents[name := ValueComponentsOf(a, name) + recorded];
    assert ValueComponentsOf(r, name) == ValueComponentsOf(a, name) + recorded;
  }

  /** Recording a winner appends each of the variable's distinct values
      exactly once to the pool of the component chosen for it, and nothing
      else to that cluster's pools. */
  lemma RecordAppendsEachValueOnce(a: Assignment, name: string, values: seq<real>, d: Decision, j: int)
    requires d.Assigned? && Fits(d, values, |a.counts|)
    requires j != -1
    ensures forall v ::
              multiset(PoolAt(Record(a, name, values, d).pools, (d.cluster, j)))[v]
              == multiset(PoolAt(a.pools, (d.cluster, j)))[v]
                 + (if v in values && d.components[v] == j then 1 else 0)
  {
    RecordPools(a, name, values, d);
    ChosenOnce(Distinct(values), d.components, j);
  }

  /** Every variable of `store` with its decision. */
  function Decisions(p: Parameters, density: LogDensity, store: map<string, seq<real>>)
    : (r: map<string, Decision>)
    requires Configured(p)
    ensures r.Keys == store.Keys
    ensures forall n :: n in r ==> r[n] == Decide(p, density, store[n]) && Fits(r[n], store[n], p.clusterCount)
  {
    assert forall n :: n in store ==> Fits(Decide(p, density, store[n]), store[n], p.clusterCount) by {
      forall n | n in store
        ensures Fits(Decide(p, density, store[n]), store[n], p.clusterCount)
      {
        DecideFits(p, density, store[n]);
      }
    }
    map n | n in store :: Decide(p, density, store[n])
  }

  /** A decision names a cluster in range and a component for exactly the
      variable's values. */
  lemma DecideFits(p: Parameters, density: LogDensity, values: seq<real>)
    requires Configured(p)
    ensures Fits(Decide(p, density, values), values, p.clusterCount)
  {
    var d := Decide(p, density, values);
    if d.Assigned? {
      EvaluateClusterKeys(p, density, d.cluster, values);
    }
  }

  /** Every decision fits its variable. */
  ghost predicate AllFit(store: map<string, seq<real>>, decisions: map<string, Decision>, clusterCount: nat) {
    forall n :: n in decisions ==> n in store && Fits(decisions[n], store[n], clusterCount)
  }

  /** How many entries of `order` are decided for cluster `c`. */
  function Tally(decisions: map<string, Decision>, order: seq<string>, c: int): (r: nat)
    requires forall n :: n in order ==> n in decisions
    ensures r <= AssignedTally(decisions, order) <= |order|
  {
    if |order| == 0 then 0
    else
      var prefix := order[..|order| - 1];
      var d := decisions[order[|order| - 1]];
      assert forall n :: n in prefix ==> n in order;
      Tally(decisions, prefix, c) + (if d.Assigned? && d.cluster == c then 1 else 0)
  }

  /** How many entries of `order` are decided for some cluster. */
  function AssignedTally(decisions: map<string, Decision>, order: seq<string>): (r: nat)
    requires forall n :: n in order ==> n in decisions
    ensures r <= |order|
  {
    if |order| == 0 then 0
    else
      var prefix := order[..|order| - 1];
      assert forall n :: n in prefix ==> n in order;
      AssignedTally(decisions, prefix) + (if decisions[order[|order| - 1]].Assigned? then 1 else 0)
  }

  /** The loop over variables, in the order `order`, recording each decision
      into `a`. */
  function RecordAll(store: map<string, seq<real>>, decisions: map<string, Decision>, order: seq<string>,
                     a: Assignment): (r: Assignment)
    requires AllFit(store, decisions, |a.counts|)
    requires forall n :: n in order ==> n in decisions
    ensures |r.counts| == |a.counts|
  {
    if |order| == 0 then a
    else
      var prefix := order[..|order| - 1];
      var last := order[|order| - 1];
      assert forall n :: n in prefix ==> n in order;
      var sofar := RecordAll(store, decisions, prefix, a);
      Record(sofar, last, store[last], decisions[last])
  }

  /** Each counter grows by the number of variables decided for its cluster. */
  lemma {:induction false} RecordAllCounts(store: map<string, seq<real>>, decisions: map<string, Decision>,
                                           order: seq<string>, a: Assignment)
    requires AllFit(store, decisions, |a.counts|)
    requires forall n :: n in order ==> n in decisions
    ensures forall i :: 0 <= i < |a.counts| ==>
              RecordAll(store, decisions, order, a).counts[i] == a.counts[i] + Tally(decisions, order, i + 1)
  {
    if |order| > 0 {
      var prefix := order[..|order| - 1];
      assert forall n :: n in prefix ==> n in order;
      RecordAllCounts(store, decisions, prefix, a);
    }
  }

  /** The counters together grow by the number of variables assigned. */
  lemma {:induction false} RecordAllTotal(store: map<string, seq<real>>, decisions: map<string, Decision>,
                                          order: seq<string>, a: Assignment)
    requires AllFit(store, decisions, |a.counts|)
    requires forall n :: n in order ==> n in decisions
    ensures TotalCount(RecordAll(store, decisions, order, a).counts)
            == TotalCount(a.counts) + AssignedTally(decisions, order)
  {
    if |order| > 0 {
      var prefix := order[..|order| - 1];
      var last := order[|order| - 1];
      assert forall n :: n in prefix ==> n in order;
      RecordAllTotal(store, decisions, prefix, a);
      var sofar := RecordAll(store, decisions, prefix, a);
      var d := decisions[last];
      assert RecordAll(store, decisions, order, a) == Record(sofar, last, store[last], d);
      assert AssignedTally(decisions, order) == AssignedTally(decisions, prefix) + (if d.Assigned? then 1 else 0);
      if d.Assigned? {
        TotalCountIncrement(sofar.counts, d.cluster - 1);
      }
    }
  }

  /** A variable is mapped to a cluster exactly when it was mapped before or
      is in `order` and assigned, and then to its decided cluster. */
  lemma {:induction false} RecordAllClusters(store: map<string, seq<real>>, decisions: map<string, Decision>,
                                             order: seq<string>, a: Assignment)
    requires AllFit(store, decisions, |a.counts|)
    requires forall n :: n in order ==> n in decisions
    requires NoDuplicates(order)
    ensures var r := RecordAll(store, decisions, order, a);
            && (forall n :: n in r.variableClusters <==>
                  n in a.variableClusters || (n in order && decisions[n].Assigned?))
            && (forall n :: n in order && decisions[n].Assigned? ==>
                  r.variableClusters[n] == decisions[n].cluster)
  {
    if |order| > 0 {
      var prefix := order[..|order| - 1];
      var last := order[|order| - 1];
      assert forall n :: n in order <==> n in prefix || n == last;
      RecordAllClusters(store, decisions, prefix, a);
    }
  }

  /** How many variables of `order` are decided for cluster `c` with the
      value `v` chosen for component `j`: the copies of `v` the variable
      loop appends to pool (c, j). */
  function Contributors(decisions: map<string, Decision>, order: seq<string>, c: int, j: int, v: real): (r: nat)
    requires forall n :: n in order ==> n in decisions
    ensures r <= Tally(decisions, order, c)
  {
    if |order| == 0 then 0
    else
      var prefix := order[..|order| - 1];
      var d := decisions[order[|order| - 1]];
      assert forall n :: n in prefix ==> n in order;
      Contributors(decisions, prefix, c, j, v)
      + (if d.Assigned? && d.cluster == c && v in d.components && d.components[v] == j then 1 else 0)
  }

  /** One recorded decision adds to pool (c, j) one copy of `v` exactly
      when the variable went to `c` and chose `j` for `v`. */
  lemma RecordAddsToPool(a: Assignment, name: string, values: seq<real>, d: Decision)
    requires Fits(d, values, |a.counts|)
    ensures var r := Record(a, name, values, d);
            && (forall c, j, v :: j != -1 ==>
                  multiset(PoolAt(r.pools, (c, j)))[v]
                  == multiset(PoolAt(a.pools, (c, j)))[v]
                     + (if d.Assigned? && d.cluster == c && v in d.components && d.components[v] == j then 1 else 0))
            && (forall c :: PoolAt(r.pools, (c, -1)) == PoolAt(a.pools, (c, -1)))
  {
    if d.Assigned? {
      var r := Record(a, name, values, d);
      assert forall v :: v in d.components <==> v in values;
      RecordPools(a, name, values, d);
      forall c, j, v | j != -1
        ensures multiset(PoolAt(r.pools, (c, j)))[v]
                == multiset(PoolAt(a.pools, (c, j)))[v]
                   + (if d.cluster == c && v in d.components && d.components[v] == j then 1 else 0)
      {
        if c == d.cluster {
          RecordAppendsEachValueOnce(a, name, values, d, j);
        } else {
          assert PoolAt(r.pools, (c, j)) == PoolAt(a.pools, (c, j));
        }
      }
    }
  }

  /** After the variable loop, pool (c, j) holds its earlier values plus one
      copy of `v` for every variable decided for `c` that chose `j` for `v`;
      the pools of component -1 are untouched. */
  lemma {:induction false} RecordAllPools(store: map<string, seq<real>>, decisions: map<string, Decision>,
                                          order: seq<string>, a: Assignment)
    requires AllFit(store, decisions, |a.counts|)
    requires forall n :: n in order ==> n in decisions
    ensures var r := RecordAll(store, decisions, order, a);
            && (forall c, j, v :: j != -1 ==>
                  multiset(PoolAt(r.pools, (c, j)))[v]
                  == multiset(PoolAt(a.pools, (c, j)))[v] + Contributors(decisions, order, c, j, v))
            && (forall c :: PoolAt(r.pools, (c, -1)) == PoolAt(a.pools, (c, -1)))
  {
    if |order| > 0 {
      var prefix := order[..|order| - 1];
      var last := order[|order| - 1];
      assert forall n :: n in prefix ==> n in order;
      RecordAllPools(store, decisions, prefix, a);
      var sofar := RecordAll(store, decisions, prefix, a);
      assert RecordAll(store, decisions, order, a) == Record(sofar, last, store[last], decisions[last]);
      RecordAddsToPool(sofar, last, store[last], decisions[last]);
    }
  }

  /** After the variable loop every assigned variable of `order` maps each
      of its values with a chosen component to that component; the entries
      of every other variable are as before. */
  lemma {:induction false} RecordAllComponents(store: map<string, seq<real>>, decisions: map<string, Decision>,
                                               order: seq<string>, a: Assignment)
    requires AllFit(store, decisions, |a.counts|)
    requires forall n :: n in order ==> n in decisions
    requires NoDuplicates(order)
    ensures var r := RecordAll(store, decisions, order, a);
            && (forall n :: !(n in order && decisions[n].Assigned?) ==>
                  ValueComponentsOf(r, n) == ValueComponentsOf(a, n))
            && (forall n, v :: n in order && decisions[n].Assigned? && v in store[n]
                               && decisions[n].components[v] != -1 ==>
                  v in ValueComponentsOf(r, n) && ValueComponentsOf(r, n)[v] == decisions[n].components[v])
  {
    if |order| > 0 {
      var prefix := order[..|order| - 1];
      var last := order[|order| - 1];
      assert forall n :: n in order <==> n in prefix || n == last;
      RecordAllComponents(store, decisions, prefix, a);
      var sofar := RecordAll(store, decisions, prefix, a);
      if decisions[last].Assigned? {
        RecordComponents(sofar, last, store[last], decisions[last]);
      }
    }
  }

  /** `order` lists every variable of `store` exactly once: the iteration
      order of `variableValues.entrySet()`. */
  predicate Enumerates(order: seq<string>, store: map<string, seq<real>>) {
    && (forall n :: n in order ==> n in store)
    && (forall n :: n in store ==> n in order)
    && NoDuplicates(order)
  }

  lemma {:induction false} DistinctSize<T>(s: seq<T>)
    requires NoDuplicates(s)
    ensures |set x | x in s| == |s|
  {
    if |s| > 0 {
      var prefix := s[..|s| - 1];
      var last := s[|s| - 1];
      DistinctSize(prefix);
      assert (set x | x in s) == (set x | x in prefix) + {last};
      assert last !in prefix;
    }
  }

  lemma EnumerationSize(order: seq<string>, store: map<string, seq<real>>)
    requires Enumerates(order, store)
    ensures |order| == |store|
  {
    DistinctSize(order);
    assert store.Keys == set x | x in order;
  }

  /** `executeEStep`: `variableClusters` starts afresh, the other maps and the
      counters carry over from `a`. Every variable lands in its decided
      cluster, each counter grows by the number of variables decided for
      its cluster, and the total grows by at most the number of variables.
      Each pool gains one copy of a value per variable that chose that
      component for it; `StepValueComponents` states the value-to-component
      map. */
  function Step(p: Parameters, density: LogDensity, store: map<string, seq<real>>, order: seq<string>,
                a: Assignment): (r: Assignment)
    requires Consistent(p, a)
    requires Enumerates(order, store)
    ensures Consistent(p, r)
    ensures forall n :: n in r.variableClusters <==> n in store && Decide(p, density, store[n]).Assigned?
    ensures forall n :: n in r.variableClusters ==> r.variableClusters[n] == Decide(p, density, store[n]).cluster
    ensures forall i :: 0 <= i < |a.counts| ==>
              r.counts[i] == a.counts[i] + Tally(Decisions(p, density, store), order, i + 1)
    ensures TotalCount(r.counts) == TotalCount(a.counts) + AssignedTally(Decisions(p, density, store), order)
    ensures TotalCount(r.counts) <= TotalCount(a.counts) + |store|
    ensures forall c, j, v :: j != -1 ==>
              multiset(PoolAt(r.pools, (c, j)))[v]
              == multiset(PoolAt(a.pools, (c, j)))[v] + Contributors(Decisions(p, density, store), order, c, j, v)
    ensures forall c :: PoolAt(r.pools, (c, -1)) == PoolAt(a.pools, (c, -1))
  {
    var start := a.(variableClusters := map[]);
    var decisions := Decisions(p, density, store);
    EnumerationSize(order, store);
    RecordAllCounts(store, decisions, order, start);
    RecordAllTotal(store, decisions, order, start);
    RecordAllClusters(store, decisions, order, start);
    RecordAllPools(store, decisions, order, start);
    assert start.pools == a.pools;
    RecordAll(store, decisions, order, start)
  }

  /** `RecordAllComponents` for a loop over exactly the decided variables,
      starting from an assignment whose variable-to-cluster map is cleared. */
  lemma RecordAllComponentsFrom(store: map<string, seq<real>>, decisions: map<string, Decision>,
                                order: seq<string>, a: Assignment)
    requires AllFit(store, decisions, |a.counts|)
    requires (forall n :: n in order <==> n in decisions) && NoDuplicates(order)
    ensures var r := RecordAll(store, decisions, order, a.(variableClusters := map[]));
            && (forall n :: !(n in decisions && decisions[n].Assigned?) ==>
                  ValueComponentsOf(r, n) == ValueComponentsOf(a, n))
            && (forall n, v :: n in decisions && decisions[n].Assigned? && v in store[n]
                               && decisions[n].components[v] != -1 ==>
                  v in ValueComponentsOf(r, n) && ValueComponentsOf(r, n)[v] == decisions[n].components[v])
  {
    var start := a.(variableClusters := map[]);
    RecordAllComponents(store, decisions, order, start);
    assert forall n :: ValueComponentsOf(start, n) == ValueComponentsOf(a, n);
  }

  /** After `executeEStep` each assigned variable maps each of its values
      with a chosen component to that component; the entries of every other
      variable are as before. */
  lemma StepValueComponents(p: Parameters, density: LogDensity, store: map<string, seq<real>>, order: seq<string>,
                            a: Assignment)
    requires Consistent(p, a)
    requires Enumerates(order, store)
    ensures var r := Step(p, density, store, order, a);
            var ds := Decisions(p, density, store);
            && (forall n :: !(n in ds && ds[n].Assigned?) ==> ValueComponentsOf(r, n) == ValueComponentsOf(a, n))
            && (forall n, v :: n in ds && ds[n].Assigned? && v in store[n] && ds[n].components[v] != -1 ==>
                  v in ValueComponentsOf(r, n) && ValueComponentsOf(r, n)[v] == ds[n].components[v])
  {
    var decisions := Decisions(p, density, store);
    assert Step(p, density, store, order, a) == RecordAll(store, decisions, order, a.(variableClusters := map[]));
    RecordAllComponentsFrom(store, decisions, order, a);
  }

  /** Every variable of `order` is assigned exactly when all of them count
      towards the assigned tally. */
  lemma {:induction false} AssignedTallyFull(decisions: map<string, Decision>, order: seq<string>)
    requires forall n :: n in order ==> n in decisions
    ensures AssignedTally(decisions, order) == |order| <==> forall n :: n in order ==> decisions[n].Assigned?
  {
    if |order| > 0 {
      var prefix := order[..|order| - 1];
      var last := order[|order| - 1];
      assert forall n :: n in order <==> n in prefix || n == last;
      AssignedTallyFull(decisions, prefix);
    }
  }

  /** The position in `slots` of the first Gaussian without a positive
      variance, or `|slots|` when there is none. */
  function FirstDegenerate(p: Parameters, slots: seq<Key>): (t: nat)
    requires forall k :: k in slots ==> k in p.gaussians
    ensures t <= |slots|
    ensures forall u :: 0 <= u < t ==> p.gaussians[slots[u]].variance > 0.0
    ensures t < |slots| ==> p.gaussians[slots[t]].variance <= 0.0
  {
    if |slots| == 0 then 0
    else if p.gaussians[slots[0]].variance <= 0.0 then 0
    else
      assert forall k :: k in slots[1..] ==> k in slots;
      1 + FirstDegenerate(p, slots[1..])
  }

  /** `executeEStep` with its exception: the stored variance is handed to
      `NormalDistribution` as the standard deviation, which must be positive.
      Every slot is built, in loop order, for each value of each variable,
      so the step throws at the first slot with a non-positive variance as
      soon as any variable has a value, and otherwise is `Step`. */
  function Run(p: Parameters, density: LogDensity, store: map<string, seq<real>>, order: seq<string>,
               a: Assignment): (r: Result<Assignment, Key>)
    requires Consistent(p, a)
    requires Enumerates(order, store)
    ensures r.Failure? <==>
              (exists k :: IsSlot(p, k) && p.gaussians[k].variance <= 0.0)
              && (exists n :: n in store && |store[n]| > 0)
    ensures r.Failure? ==>
              && IsSlot(p, r.error) && p.gaussians[r.error].variance <= 0.0
              && exists t :: 0 <= t < |Slots(p)| && Slots(p)[t] == r.error
                             && forall u :: 0 <= u < t ==> p.gaussians[Slots(p)[u]].variance > 0.0
    ensures r.Success? ==> r.value == Step(p, density, store, order, a)
  {
    var slots := Slots(p);
    var t := FirstDegenerate(p, slots);
    FirstDegenerateSlot(p);
    if t < |slots| && exists n :: n in store && |store[n]| > 0 then Failure(slots[t])
    else Success(Step(p, density, store, order, a))
  }

  /** The scan over all slots finds a degenerate one exactly when there is one. */
  lemma FirstDegenerateSlot(p: Parameters)
    requires Configured(p)
    ensures var t := FirstDegenerate(p, Slots(p));
            && (t < |Slots(p)| <==> exists k :: IsSlot(p, k) && p.gaussians[k].variance <= 0.0)
            && (t < |Slots(p)| ==> IsSlot(p, Slots(p)[t]))
  {
    var slots := Slots(p);
    var t := FirstDegenerate(p, slots);
    if k :| IsSlot(p, k) && p.gaussians[k].variance <= 0.0 {
      assert k in slots;
    }
    if t < |slots| {
      assert slots[t] in slots;
    }
  }

  /** A slot with a non-positive variance makes the E-step throw as soon as
      some variable has a value. */
  lemma DegenerateSlotFails(p: Parameters, density: LogDensity, store: map<string, seq<real>>, order: seq<string>,
                            a: Assignment, k: Key)
    requires Consistent(p, a)
    requires Enumerates(order, store)
    requires IsSlot(p, k) && p.gaussians[k].variance <= 0.0
    requires exists n :: n in store && |store[n]| > 0
    ensures Run(p, density, store, order, a).Failure?
  {
  }
}

=== FILE: extended.dfy ===
/** Doubles as the estimator sees them: a finite value or one of the two
    infinities. NaN does not arise in the modelled computations. */
module Extended {

  datatype Ext = NegInf | Fin(value: real) | PosInf

  /** Java's `a > b` on non-NaN doubles. */
  predicate Greater(a: Ext, b: Ext) {
    match a
    case NegInf => false
    case Fin(x) => b.NegInf? || (b.Fin? && x > b.value)
    case PosInf => !b.PosInf?
  }

  /** `Greater` is the strict order of the extended reals. */
  lemma GreaterIsStrictOrder(a: Ext, b: Ext, c: Ext)
    ensures !Greater(a, a)
    ensures Greater(a, b) ==> !Greater(b, a)
    ensures Greater(a, b) && Greater(b, c) ==> Greater(a, c)
    ensures a != b ==> Greater(a, b) || Greater(b, a)
  {
  }

  /** Java's `a + b` when neither operand is positive infinity:
      negative infinity absorbs every finite summand. */
  function Add(a: Ext, b: Ext): (r: Ext)
    requires !a.PosInf? && !b.PosInf?
    ensures !r.PosInf?
    ensures r.NegInf? <==> a.NegInf? || b.NegInf?
    ensures r.Fin? ==> r.value == a.value + b.value
  {
    if a.NegInf? || b.NegInf? then NegInf else Fin(a.value + b.value)
  }
}

=== FILE: init.dfy ===
/** `initializeEM`: every cluster gets the same number of components, each
    component a Gaussian fitted to a fresh random sample, and the priors
    start uniform. */
module Init {
  import opened Results
  import opened Statistics
  import opened Mixture
  import opened Observations
  import opened Sampling

  /** `k` is one of the pairs the loops of `initializeEM` visit. */
  predicate InGrid(clusterCount: nat, componentCount: nat, k: Key) {
    1 <= k.0 <= clusterCount && 1 <= k.1 <= componentCount
  }

  /** The (cluster, component) pairs of `n` clusters with `componentCount`
      components each, in the order of the nested loops. */
  function GridUpTo(n: nat, componentCount: nat): (r: seq<Key>)
    ensures forall k :: k in r <==> InGrid(n, componentCount, k)
  {
    if n == 0 then []
    else
      var row := Row(n, componentCount);
      assert forall k :: InGrid(n, componentCount, k) && k.0 == n ==> row[k.1 - 1] == k;
      GridUpTo(n - 1, componentCount) + row
  }

  /** `GridUpTo` lists the pairs in the order of the loops of
      `initializeEM`, each once; this is the order "first failing draw"
      refers to. */
  lemma {:induction false} GridInLoopOrder(n: nat, componentCount: nat)
    ensures RowMajor(GridUpTo(n, componentCount))
    ensures forall s :: 0 <= s < |GridUpTo(n, componentCount)| ==> GridUpTo(n, componentCount)[s].0 <= n
  {
    if n > 0 {
      GridInLoopOrder(n - 1, componentCount);
      RowMajorAppend(GridUpTo(n - 1, componentCount), n, componentCount);
    }
  }

  /** Slot `k` is the sample drawn with `rng(k)`. */
  function SlotSample(data: Data, rng: Key -> nat -> nat, k: Key): Result<seq<real>, SampleError> {
    Draw(data, rng(k))
  }

  /** Every one of `clusterCount` clusters has `componentCount` components. */
  function UniformCounts(clusterCount: nat, componentCount: nat): (m: map<int, nat>)
    ensures forall i :: i in m <==> 1 <= i <= clusterCount
    ensures forall i :: i in m ==> m[i] == componentCount
  {
    map i | i in Clusters(clusterCount) :: componentCount
  }

  /** The pairs of `GridUpTo`, as a set. */
  function GridSet(n: nat, componentCount: nat): (r: set<Key>)
    ensures forall k :: k in r <==> InGrid(n, componentCount, k)
  {
    set k | k in GridUpTo(n, componentCount)
  }

  /** Every slot's Gaussian fitted to its own sample. */
  function FittedGaussians(clusterCount: nat, componentCount: nat, data: Data, rng: Key -> nat -> nat)
    : (m: map<Key, Gaussian>)
    requires forall k :: InGrid(clusterCount, componentCount, k) ==> SlotSample(data, rng, k).Success?
    ensures forall k :: k in m <==> InGrid(clusterCount, componentCount, k)
    ensures forall k :: k in m ==> m[k] == Estimate(SlotSample(data, rng, k).value)
  {
    map k | k in GridSet(clusterCount, componentCount) :: Estimate(SlotSample(data, rng, k).value)
  }

  /** The draw for `slots[t]` is the first of `slots` to fail. */
  predicate FailsFirstAt(data: Data, rng: Key -> nat -> nat, slots: seq<Key>, t: int) {
    && 0 <= t < |slots|
    && SlotSample(data, rng, slots[t]).Failure?
    && forall u :: 0 <= u < t ==> SlotSample(data, rng, slots[u]).Success?
  }

  /** `error` is what the first failing draw of `slots` raised. */
  predicate FirstError(data: Data, rng: Key -> nat -> nat, slots: seq<Key>, error: SampleError) {
    exists t :: 0 <= t < |slots| && FailsFirstAt(data, rng, slots, t) && error == SlotSample(data, rng, slots[t]).error
  }

  /** `log(1 / clusterCount)` for every cluster, as a ratio: a distribution
      over the clusters. */
  function UniformClusterRatios(clusterCount: nat): (m: map<int, real>)
    ensures forall i :: i in m <==> 1 <= i <= clusterCount
    ensures forall i :: i in m ==> m[i] == 1.0 / clusterCount as real
    ensures clusterCount > 0 ==> ClusterPriorSum(m, clusterCount) == 1.0
  {
    var m := map i | i in Clusters(clusterCount) :: 1.0 / clusterCount as real;
    if clusterCount > 0 then
      UniformClusterSum(m, clusterCount, clusterCount as real);
      DivAtMostOne(clusterCount as real, clusterCount as real);
      m
    else m
  }

  /** `log(1 / componentCount)` for every slot, as a ratio: a distribution
      over the components of every cluster whose slots are all present. */
  function UniformComponentRatios(slots: set<Key>, componentCount: nat): (m: map<Key, real>)
    requires forall k :: k in slots ==> 1 <= k.1 <= componentCount
    ensures m.Keys == slots
    ensures forall k :: k in m ==> m[k] == 1.0 / componentCount as real
    ensures forall i :: componentCount > 0 && (forall j :: 1 <= j <= componentCount ==> (i, j) in slots) ==>
              ComponentPriorSum(m, i, componentCount) == 1.0
  {
    var m := map k | k in slots :: 1.0 / componentCount as real;
    UniformRowsSumToOne(m, slots, componentCount);
    m
  }

  /** Every complete row of `componentCount` priors of `1 / componentCount`
      sums to one. */
  lemma UniformRowsSumToOne(m: map<Key, real>, slots: set<Key>, componentCount: nat)
    requires m.Keys == slots
    requires forall k :: k in m ==> componentCount > 0 && m[k] == 1.0 / componentCount as real
    ensures forall i :: componentCount > 0 && (forall j :: 1 <= j <= componentCount ==> (i, j) in slots) ==>
              ComponentPriorSum(m, i, componentCount) == 1.0
  {
    forall i | componentCount > 0 && (forall j :: 1 <= j <= componentCount ==> (i, j) in slots)
      ensures ComponentPriorSum(m, i, componentCount) == 1.0
    {
      UniformComponentSum(m, i, componentCount, componentCount as real);
      DivAtMostOne(componentCount as real, componentCount as real);
    }
  }

  /** The state `initializeEM` leaves once every draw has succeeded: uniform
      priors, no assignments, and counters at zero. */
  function Initial(clusterCount: nat, componentCount: nat, data: Data, rng: Key -> nat -> nat): (e: Estimator)
    requires forall k :: InGrid(clusterCount, componentCount, k) ==> SlotSample(data, rng, k).Success?
    ensures Consistent(e.params, e.assignment)
    ensures e.params.clusterCount == clusterCount
    ensures forall i :: 1 <= i <= clusterCount ==> e.params.componentCount[i] == componentCount
    ensures e.assignment == Assignment(map[], map[], map[], Zeros(clusterCount))
  {
    var slots := GridSet(clusterCount, componentCount);
    var counts := UniformCounts(clusterCount, componentCount);
    var gaussians := FittedGaussians(clusterCount, componentCount, data, rng);
    assert forall i :: 1 <= i <= clusterCount ==> i in counts;
    assert forall i, j :: 1 <= i <= clusterCount && 1 <= j <= counts[i] ==> InGrid(clusterCount, componentCount, (i, j));
    var p := Parameters(
      clusterCount,
      counts,
      gaussians,
      UniformClusterRatios(clusterCount),
      UniformComponentRatios(slots, componentCount));
    Estimator(p, Assignment(map[], map[], map[], Zeros(clusterCount)))
  }

  /** Each slot's initial Gaussian is the mean and variance of its own
      sample. */
  lemma InitialGaussians(clusterCount: nat, componentCount: nat, data: Data, rng: Key -> nat -> nat)
    requires forall k :: InGrid(clusterCount, componentCount, k) ==> SlotSample(data, rng, k).Success?
    ensures var p := Initial(clusterCount, componentCount, data, rng).params;
            forall k :: IsSlot(p, k) ==> p.gaussians[k] == Estimate(SlotSample(data, rng, k).value)
  {
  }

  /** The initial priors are uniform: `1 / clusterCount` per cluster and
      `1 / componentCount` per component. */
  lemma InitialPriors(clusterCount: nat, componentCount: nat, data: Data, rng: Key -> nat -> nat)
    requires forall k :: InGrid(clusterCount, componentCount, k) ==> SlotSample(data, rng, k).Success?
    ensures var p := Initial(clusterCount, componentCount, data, rng).params;
            && (forall i :: 1 <= i <= clusterCount ==> i in p.clusterRatio && p.clusterRatio[i] == 1.0 / clusterCount as real)
            && (forall k :: IsSlot(p, k) ==>
                  k in p.componentRatio && componentCount > 0 && p.componentRatio[k] == 1.0 / componentCount as real)
  {
    assert forall k :: k in GridUpTo(clusterCount, componentCount) <==> InGrid(clusterCount, componentCount, k);
  }

  /** `initializeEM(clusterCount, componentCount)`, drawing one sample per
      slot in loop order: the first failing draw aborts it. */
  function Initialize(clusterCount: nat, componentCount: nat, data: Data, rng: Key -> nat -> nat)
    : (r: Result<Estimator, SampleError>)
    ensures r.Success? <==> forall k :: InGrid(clusterCount, componentCount, k) ==> SlotSample(data, rng, k).Success?
    ensures SourcesAvailable(data) ==> r.Success?
    ensures r.Failure? ==> FirstError(data, rng, GridUpTo(clusterCount, componentCount), r.error)
    ensures r.Success? ==> r.value == Initial(clusterCount, componentCount, data, rng)
  {
    var grid := GridUpTo(clusterCount, componentCount);
    var draw := (k: Key) => SlotSample(data, rng, k);
    match Traverse(grid, draw)
    case Failure(e) =>
      FirstFailedDraw(grid, draw, data, rng);
      Failure(e)
    case Success(_) => Success(Initial(clusterCount, componentCount, data, rng))
  }

  /** When drawing the samples of `slots` in order fails, the error is the
      one of the first failing draw. */
  lemma FirstFailedDraw(slots: seq<Key>, draw: Key -> Result<seq<real>, SampleError>, data: Data,
                        rng: Key -> nat -> nat)
    requires forall k :: draw(k) == SlotSample(data, rng, k)
    ensures Traverse(slots, draw).Failure? ==> FirstError(data, rng, slots, Traverse(slots, draw).error)
  {
    if Traverse(slots, draw).Success? {
      return;
    }
    var t :| 0 <= t < |slots| && draw(slots[t]).Failure? && draw(slots[t]).error == Traverse(slots, draw).error
             && forall u :: 0 <= u < t ==> draw(slots[u]).Success?;
    assert FailsFirstAt(data, rng, slots, t);
  }

  /** `n` priors of `1 / d` each sum to `n / d`. */
  lemma {:induction false} UniformClusterSum(ratios: map<int, real>, n: nat, d: real)
    requires d > 0.0
    requires forall i :: 1 <= i <= n ==> i in ratios && ratios[i] == 1.0 / d
    ensures ClusterPriorSum(ratios, n) == n as real / d
  {
    if n > 0 {
      UniformClusterSum(ratios, n - 1, d);
      DivAdd((n - 1) as real, 1.0, d);
    }
  }

  lemma {:induction false} UniformComponentSum(ratios: map<Key, real>, i: int, c: nat, d: real)
    requires d > 0.0
    requires forall j :: 1 <= j <= c ==> (i, j) in ratios && ratios[(i, j)] == 1.0 / d
    ensures ComponentPriorSum(ratios, i, c) == c as real / d
  {
    if c > 0 {
      UniformComponentSum(ratios, i, c - 1, d);
      DivAdd((c - 1) as real, 1.0, d);
    }
  }

  /** Uniform priors are distributions: `n` priors of `1 / n` sum to one. */
  lemma UniformPriorsSumToOne(clusterRatio: map<int, real>, componentRatio: map<Key, real>, clusterCount: nat,
                              componentCount: nat, i: int)
    requires clusterCount > 0 && componentCount > 0
    requires forall c :: 1 <= c <= clusterCount ==> c in clusterRatio && clusterRatio[c] == 1.0 / clusterCount as real
    requires forall j :: 1 <= j <= componentCount ==>
               (i, j) in componentRatio && componentRatio[(i, j)] == 1.0 / componentCount as real
    ensures ClusterPriorSum(clusterRatio, clusterCount) == 1.0
    ensures ComponentPriorSum(componentRatio, i, componentCount) == 1.0
  {
    UniformClusterSum(clusterRatio, clusterCount, clusterCount as real);
    DivAtMostOne(clusterCount as real, clusterCount as real);
    UniformComponentSum(componentRatio, i, componentCount, componentCount as real);
    DivAtMostOne(componentCount as real, componentCount as real);
  }

  /** The priors `initializeEM` sets are distributions: the cluster priors
      sum to one, and so do the component priors of every cluster. */
  lemma InitialPriorsSumToOne(clusterCount: nat, componentCount: nat, data: Data, rng: Key -> nat -> nat, i: int)
    requires clusterCount > 0 && componentCount > 0
    requires forall k :: InGrid(clusterCount, componentCount, k) ==> SlotSample(data, rng, k).Success?
    requires 1 <= i <= clusterCount
    ensures var p := Initial(clusterCount, componentCount, data, rng).params;
            && ClusterPriorSum(p.clusterRatio, clusterCount) == 1.0
            && ComponentPriorSum(p.componentRatio, i, componentCount) == 1.0
  {
    var p := Initial(clusterCount, componentCount, data, rng).params;
    InitialPriors(clusterCount, componentCount, data, rng);
    forall j | 1 <= j <= componentCount
      ensures (i, j) in p.componentRatio && p.componentRatio[(i, j)] == 1.0 / componentCount as real
    {
      assert IsSlot(p, (i, j));
    }
    UniformPriorsSumToOne(p.clusterRatio, p.componentRatio, clusterCount, componentCount, i);
  }
}

=== FILE: iteration.dfy ===
/** One EM iteration, `executeEStep` followed by `executeMStep`, with the
    exceptions either can raise. The source never resets
    `clusterVariableCount`, so its counters keep the previous iterations'
    assignments; `IterateAsWritten` models that, `Iterate` the intended
    per-iteration counters. */
module Iteration {
  import opened Results
  import opened Extended
  import opened Statistics
  import opened Mixture
  import opened Observations
  import opened Sampling
  import EStep
  import MStep

  /** What stops an iteration: a component whose variance is not positive
      when the E-step builds its distribution, or a failing random draw in
      the M-step. */
  datatype Fault = Degenerate(slot: Key) | DrawFailed(error: SampleError)

  /** The E-step on `a` followed by the M-step on its result. */
  function Cycle(p: Parameters, a: Assignment, data: Data, density: LogDensity, order: seq<string>,
                 rng: Key -> nat -> nat): (r: Result<Estimator, Fault>)
    requires Consistent(p, a)
    requires EStep.Enumerates(order, data.store)
    ensures r.Success? <==>
              && EStep.Run(p, density, data.store, order, a).Success?
              && MStep.Step(p, EStep.Run(p, density, data.store, order, a).value, data, rng).Success?
    ensures r.Failure? && r.error.Degenerate? <==> EStep.Run(p, density, data.store, order, a).Failure?
    ensures r.Failure? && r.error.Degenerate? ==>
              r.error.slot == EStep.Run(p, density, data.store, order, a).error
    ensures r.Failure? && r.error.DrawFailed? ==>
              && EStep.Run(p, density, data.store, order, a).Success?
              && var b := EStep.Run(p, density, data.store, order, a).value;
                 && MStep.Step(p, b, data, rng).Failure?
                 && r.error.error == MStep.Step(p, b, data, rng).error
    ensures r.Success? ==>
              && EStep.Run(p, density, data.store, order, a).Success?
              && var b := EStep.Run(p, density, data.store, order, a).value;
                 && MStep.Step(p, b, data, rng).Success?
                 && r.value == MStep.Step(p, b, data, rng).value
                 && Consistent(r.value.params, r.value.assignment)
  {
    match EStep.Run(p, density, data.store, order, a)
    case Failure(k) => Failure(Degenerate(k))
    case Success(b) =>
      match MStep.Step(p, b, data, rng)
      case Failure(err) => Failure(DrawFailed(err))
      case Success(next) => Success(next)
  }

  /** The iteration as the source runs it: the counters carry over from
      every earlier iteration. */
  function IterateAsWritten(e: Estimator, data: Data, density: LogDensity, order: seq<string>,
                            rng: Key -> nat -> nat): (r: Result<Estimator, Fault>)
    requires Consistent(e.params, e.assignment)
    requires EStep.Enumerates(order, data.store)
    ensures r.Success? ==>
              && Consistent(r.value.params, r.value.assignment)
              && r.value.params.clusterCount == e.params.clusterCount
              && r.value.params.componentCount == e.params.componentCount
              && TotalCount(r.value.assignment.counts)
                 == TotalCount(e.assignment.counts)
                    + EStep.AssignedTally(EStep.Decisions(e.params, density, data.store), order)
    ensures r.Success? ==> forall i :: 1 <= i <= e.params.clusterCount ==> i in r.value.params.clusterRatio
  {
    Cycle(e.params, e.assignment, data, density, order, rng)
  }

  /** The iteration with the counters the priors are meant to count: each
      E-step starts them at zero, so they add up to the number of variables
      assigned in this iteration. */
  function Iterate(e: Estimator, data: Data, density: LogDensity, order: seq<string>, rng: Key -> nat -> nat)
    : (r: Result<Estimator, Fault>)
    requires Consistent(e.params, e.assignment)
    requires EStep.Enumerates(order, data.store)
    ensures r.Success? ==>
              && Consistent(r.value.params, r.value.assignment)
              && r.value.params.clusterCount == e.params.clusterCount
              && r.value.params.componentCount == e.params.componentCount
              && TotalCount(r.value.assignment.counts)
                 == EStep.AssignedTally(EStep.Decisions(e.params, density, data.store), order)
    ensures r.Success? ==> forall i :: 1 <= i <= e.params.clusterCount ==> i in r.value.params.clusterRatio
  {
    Cycle(e.params, e.assignment.(counts := Zeros(e.params.clusterCount)), data, density, order, rng)
  }

  /** With the counters reset, the cluster priors an iteration leaves form
      a distribution over the assigned variables: they sum to at most one,
      and to exactly one when every variable is assigned. */
  lemma IteratePriorsSumToOne(e: Estimator, data: Data, density: LogDensity, order: seq<string>,
                              rng: Key -> nat -> nat)
    requires Consistent(e.params, e.assignment) && e.params.clusterCount > 0
    requires EStep.Enumerates(order, data.store)
    ensures Iterate(e, data, density, order, rng).Success? ==>
              var q := Iterate(e, data, density, order, rng).value.params;
              && ClusterPriorSum(q.clusterRatio, e.params.clusterCount) <= 1.0
              && (ClusterPriorSum(q.clusterRatio, e.params.clusterCount) == 1.0
                  <==> forall n :: n in data.store ==> EStep.Decide(e.params, density, data.store[n]).Assigned?)
  {
    if !Iterate(e, data, density, order, rng).Success? {
      return;
    }
    var p := e.params;
    var start := e.assignment.(counts := Zeros(p.clusterCount));
    var b := EStep.Run(p, density, data.store, order, start).value;
    var decisions := EStep.Decisions(p, density, data.store);
    EStep.AssignedTallyFull(decisions, order);
    EStep.EnumerationSize(order, data.store);
    MStep.ClusterPriorsSum(p, b, data, rng);
  }

  /** A log-density that is finite everywhere. */
  function FlatDensity(): LogDensity {
    (g: Gaussian, v: real) => Fin(0.0)
  }

  /** Under a log-density finite everywhere every variable is assigned, as
      soon as some cluster `i` has a component. */
  lemma FiniteDensityAssignsAll(p: Parameters, density: LogDensity, i: int, values: seq<real>)
    requires Configured(p) && 1 <= i <= p.clusterCount && p.componentCount[i] > 0
    requires forall g, v :: density(g, v).Fin?
    ensures EStep.Decide(p, density, values).Assigned?
  {
    forall v | v in values
      ensures EStep.ChooseComponent(p, density, i, v).index != -1
    {
      var scores := EStep.ComponentScores(p, density, i, v);
      assert scores[0] == density(p.gaussians[(i, 1)], v);
    }
    assert EStep.EvaluateCluster(p, density, i, values).score != NegInf;
  }

  /** As written, the counters of two iterations add up: under a
      log-density finite everywhere every variable is assigned in both, so
      the second M-step's cluster priors sum to more than one. */
  lemma PriorsExceedOneAsWritten(e: Estimator, data: Data, density: LogDensity, order: seq<string>,
                                 rng1: Key -> nat -> nat, rng2: Key -> nat -> nat)
    requires Consistent(e.params, e.assignment)
    requires EStep.Enumerates(order, data.store)
    requires forall g, v :: density(g, v).Fin?
    requires e.params.clusterCount > 0 && e.params.componentCount[1] > 0
    requires TotalCount(e.assignment.counts) == 0 && |data.store| > 0
    ensures IterateAsWritten(e, data, density, order, rng1).Success? ==>
              var e1 := IterateAsWritten(e, data, density, order, rng1).value;
              IterateAsWritten(e1, data, density, order, rng2).Success? ==>
                var e2 := IterateAsWritten(e1, data, density, order, rng2).value;
                ClusterPriorSum(e2.params.clusterRatio, e.params.clusterCount) > 1.0
  {
    var r1 := IterateAsWritten(e, data, density, order, rng1);
    if r1.Success? && IterateAsWritten(r1.value, data, density, order, rng2).Success? {
      FirstIterationCounts(e, data, density, order, rng1);
      SecondIterationExceedsOne(e, r1.value, data, density, order, rng2);
    }
  }

  /** A first iteration as written, from zero counters, leaves them totalling
      the variables it assigned. */
  lemma FirstIterationCounts(e: Estimator, data: Data, density: LogDensity, order: seq<string>,
                             rng1: Key -> nat -> nat)
    requires Consistent(e.params, e.assignment)
    requires EStep.Enumerates(order, data.store)
    requires TotalCount(e.assignment.counts) == 0
    ensures IterateAsWritten(e, data, density, order, rng1).Success? ==>
              var e1 := IterateAsWritten(e, data, density, order, rng1).value;
              && Consistent(e1.params, e1.assignment)
              && e1.params.clusterCount == e.params.clusterCount
              && e1.params.componentCount == e.params.componentCount
              && TotalCount(e1.assignment.counts)
                 == EStep.AssignedTally(EStep.Decisions(e.params, density, data.store), order)
  {
  }

  /** The second of two iterations as written, under a log-density finite
      everywhere, after a first one that started from zero counters: both
      assign every variable, so the second E-step brings the counters to
      twice the number of variables and its M-step's cluster priors sum to
      more than one. */
  lemma SecondIterationExceedsOne(e: Estimator, e1: Estimator, data: Data, density: LogDensity,
                                  order: seq<string>, rng2: Key -> nat -> nat)
    requires Consistent(e.params, e.assignment) && Consistent(e1.params, e1.assignment)
    requires EStep.Enumerates(order, data.store)
    requires forall g, v :: density(g, v).Fin?
    requires e1.params.clusterCount == e.params.clusterCount && e1.params.componentCount == e.params.componentCount
    requires e.params.clusterCount > 0 && e.params.componentCount[1] > 0 && |data.store| > 0
    requires TotalCount(e1.assignment.counts)
             == EStep.AssignedTally(EStep.Decisions(e.params, density, data.store), order)
    requires IterateAsWritten(e1, data, density, order, rng2).Success?
    ensures ClusterPriorSum(IterateAsWritten(e1, data, density, order, rng2).value.params.clusterRatio,
                            e.params.clusterCount) > 1.0
  {
    FiniteDensityAssignsEvery(e.params, density, data.store, order);
    FiniteDensityAssignsEvery(e1.params, density, data.store, order);
    AsWrittenPriorSum(e1, data, density, order, rng2);
  }

  /** The cluster priors an iteration as written leaves sum to at most one
      exactly when the carried-over counters plus this iteration's
      assignments total at most the number of variables. */
  lemma AsWrittenPriorSum(e: Estimator, data: Data, density: LogDensity, order: seq<string>,
                          rng: Key -> nat -> nat)
    requires Consistent(e.params, e.assignment) && e.params.clusterCount > 0
    requires EStep.Enumerates(order, data.store)
    requires IterateAsWritten(e, data, density, order, rng).Success?
    ensures ClusterPriorSum(IterateAsWritten(e, data, density, order, rng).value.params.clusterRatio,
                            e.params.clusterCount) <= 1.0
            <==> TotalCount(e.assignment.counts)
                 + EStep.AssignedTally(EStep.Decisions(e.params, density, data.store), order) <= |data.store|
  {
    var b := EStep.Run(e.params, density, data.store, order, e.assignment).value;
    MStep.ClusterPriorsSum(e.params, b, data, rng);
  }

  /** Under a log-density finite everywhere every variable of the loop is
      assigned, so the assigned tally is the number of variables. */
  lemma FiniteDensityAssignsEvery(p: Parameters, density: LogDensity, store: map<string, seq<real>>,
                                  order: seq<string>)
    requires Configured(p) && p.clusterCount > 0 && p.componentCount[1] > 0
    requires forall g, v :: density(g, v).Fin?
    requires EStep.Enumerates(order, store)
    ensures EStep.AssignedTally(EStep.Decisions(p, density, store), order) == |store|
  {
    EStep.EnumerationSize(order, store);
    var d := EStep.Decisions(p, density, store);
    forall n | n in order
      ensures d[n].Assigned?
    {
      FiniteDensityAssignsAll(p, density, 1, store[n]);
    }
    EStep.AssignedTallyFull(d, order);
  }

  /** One cluster with one component. */
  function ExampleState(): Estimator {
    Estimator(Parameters(1, map[1 := 1], map[(1, 1) := Gaussian(0.0, 1.0)], map[], map[]),
              Assignment(map[], map[], map[], [0]))
  }

  /** The observations 0.0, 1.0, ..., 200.0 of a second variable: 201
      distinct values, so the unique-count filter drops that variable, while
      loading has already put its values into both extreme arrays. */
  function DroppedValues(): (r: seq<real>)
    ensures |r| == 201 && forall i :: 0 <= i < 201 ==> r[i] == i as real
  {
    seq(201, i => i as real)
  }

  /** One listed variable, without observations, after the filter dropped
      the variable of `DroppedValues`: both extreme arrays hold its values. */
  function ExampleData(): Data {
    Data(map["x" := []], ["x"], DroppedValues(), DroppedValues())
  }

  /** Every draw is 1, so every `getRandomSamples()` picks the low extremes. */
  function ExampleSampler(): Key -> nat -> nat {
    (k: Key) => (t: nat) => 1
  }

  /** Every draw of the example sampler succeeds on data whose low extremes
      are non-empty: it always reads them. */
  lemma ExampleDrawsSucceed(d: Data, k: Key)
    requires |d.low| > 0
    ensures Draw(d, ExampleSampler()(k)).Success?
  {
    assert ExampleSampler()(k)(0) % 5 == 1;
  }

  /** The example sampler's draws read the low extremes at one and the same
      position, so every sample they give repeats one value and has no
      spread, however varied the extremes are. */
  lemma ExampleSampleConstant(d: Data, k: Key)
    requires |d.low| > 0
    ensures Draw(d, ExampleSampler()(k)).Success?
    ensures forall i :: 0 <= i < SAMPLE_SIZE ==> Draw(d, ExampleSampler()(k)).value[i] == d.low[1 % |d.low|]
    ensures AllSame(Draw(d, ExampleSampler()(k)).value)
  {
    ExampleDrawsSucceed(d, k);
  }

  /** As written, a component refitted to a sample without spread gets
      variance zero, and the next E-step then throws at that component as
      soon as some variable has a value. */
  lemma DegenerateResampleBreaksNextEStep(p: Parameters, a: Assignment, data: Data, density: LogDensity,
                                          order: seq<string>, rng: Key -> nat -> nat, k: Key)
    requires Consistent(p, a)
    requires EStep.Enumerates(order, data.store)
    requires IsSlot(p, k) && !(|PoolAt(a.pools, k)| > 1 && !AllSame(PoolAt(a.pools, k)))
    requires Draw(data, rng(k)).Success? && AllSame(Draw(data, rng(k)).value)
    requires exists n :: n in data.store && |data.store[n]| > 0
    ensures MStep.Step(p, a, data, rng).Success? ==>
              var e := MStep.Step(p, a, data, rng).value;
              && e.params.gaussians[k].variance == 0.0
              && EStep.Run(e.params, density, data.store, order, e.assignment).Failure?
  {
    var r := MStep.Step(p, a, data, rng);
    if r.Success? {
      MStep.ConstantResampleInStep(p, a, data, rng, k);
      var e := r.value;
      EStep.DegenerateSlotFails(e.params, density, data.store, order, e.assignment, k);
    }
  }

  /** An iteration goes through when the E-step does and every draw would
      succeed. */
  lemma CycleSucceeds(p: Parameters, a: Assignment, data: Data, density: LogDensity, order: seq<string>,
                      rng: Key -> nat -> nat)
    requires Consistent(p, a)
    requires EStep.Enumerates(order, data.store)
    requires EStep.Run(p, density, data.store, order, a).Success?
    requires forall k :: Draw(data, rng(k)).Success?
    ensures Cycle(p, a, data, density, order, rng).Success?
  {
    var b := EStep.Run(p, density, data.store, order, a).value;
    forall k | IsSlot(p, k)
      ensures MStep.SlotFit(b, data, rng, k).Success?
    {
      assert Draw(data, rng(k)).Success?;
    }
  }

  /** From a state of the example's shape, one iteration, either way,
      succeeds and keeps that shape. */
  lemma ExampleStep(e: Estimator, reset: bool)
    requires Consistent(e.params, e.assignment)
    requires e.params.clusterCount == 1 && e.params.componentCount == map[1 := 1]
    ensures var a := if reset then e.assignment.(counts := Zeros(1)) else e.assignment;
            var r := Cycle(e.params, a, ExampleData(), FlatDensity(), ["x"], ExampleSampler());
            && r.Success?
            && r.value.params.clusterCount == 1 && r.value.params.componentCount == map[1 := 1]
  {
    var a := if reset then e.assignment.(counts := Zeros(1)) else e.assignment;
    var data := ExampleData();
    assert EStep.Enumerates(["x"], data.store);
    assert !exists n :: n in data.store && |data.store[n]| > 0;
    forall k ensures Draw(data, ExampleSampler()(k)).Success? {
      ExampleDrawsSucceed(ExampleData(), k);
    }
    CycleSucceeds(e.params, a, data, FlatDensity(), ["x"], ExampleSampler());
  }

  /** On the example, two iterations as written both succeed and leave
      cluster priors summing to more than one. */
  lemma AccumulationExample(e0: Estimator, data: Data, rng: Key -> nat -> nat)
    requires e0 == ExampleState() && data == ExampleData() && rng == ExampleSampler()
    ensures IterateAsWritten(e0, data, FlatDensity(), ["x"], rng).Success?
    ensures var e1 := IterateAsWritten(e0, data, FlatDensity(), ["x"], rng).value;
            && IterateAsWritten(e1, data, FlatDensity(), ["x"], rng).Success?
            && ClusterPriorSum(IterateAsWritten(e1, data, FlatDensity(), ["x"], rng).value.params.clusterRatio, 1) > 1.0
  {
    var order := ["x"];
    assert EStep.Enumerates(order, data.store);
    ExampleStep(e0, false);
    var e1 := IterateAsWritten(e0, data, FlatDensity(), order, rng).value;
    ExampleStep(e1, false);
    PriorsExceedOneAsWritten(e0, data, FlatDensity(), order, rng, rng);
  }

  /** On the same example the corrected iteration succeeds and leaves cluster
      priors summing to exactly one. */
  lemma CorrectedExample(e0: Estimator, data: Data, rng: Key -> nat -> nat)
    requires e0 == ExampleState() && data == ExampleData() && rng == ExampleSampler()
    ensures Iterate(e0, data, FlatDensity(), ["x"], rng).Success?
    ensures ClusterPriorSum(Iterate(e0, data, FlatDensity(), ["x"], rng).value.params.clusterRatio, 1) == 1.0
  {
    var order := ["x"];
    assert EStep.Enumerates(order, data.store);
    ExampleStep(e0, true);
    FiniteDensityAssignsAll(e0.params, FlatDensity(), 1, []);
    IteratePriorsSumToOne(e0, data, FlatDensity(), order, rng);
  }
}

=== FILE: mixture.dfy ===
/** The estimator's state: the current parameters of every (cluster,
    component) Gaussian, the smoothed prior ratios, and the assignment maps
    that an E-step fills and an M-step consumes. */
module Mixture {
  import opened Extended
  import opened Statistics

  const CLUSTER_COUNT: nat := 12
  const COMPONENT_COUNT: nat := 3
  const SAMPLE_SIZE: nat := 1000

  /** The `{mean, variance}` pair stored per component. */
  datatype Gaussian = Gaussian(mean: real, variance: real)

  /** A (cluster, component) pair; the source spells it as the string "i_j". */
  type Key = (int, int)

  /** The Gaussian log-density of a value under a component's parameters. */
  type LogDensity = (Gaussian, real) -> Ext

  /** Priors are kept as the ratios whose logarithm the source stores. */
  datatype Parameters = Parameters(
    clusterCount: nat,
    componentCount: map<int, nat>,
    gaussians: map<Key, Gaussian>,
    clusterRatio: map<int, real>,
    componentRatio: map<Key, real>)

  /** `variableClusters`, `variableValueComponents` (the source's key
      "variable_value" split into a map per variable), the per-(cluster,
      component) value pools, and
      `clusterVariableCount` (index `i - 1` for cluster `i`). */
  datatype Assignment = Assignment(
    variableClusters: map<string, int>,
    valueComponents: map<string, map<real, int>>,
    pools: map<Key, seq<real>>,
    counts: seq<nat>)

  /** The whole state an EM iteration reads and writes. */
  datatype Estimator = Estimator(params: Parameters, assignment: Assignment)

  /** The mean and (sample) variance of `s`, as `DescriptiveStatistics`
      reports them. */
  function Estimate(s: seq<real>): Gaussian
    requires |s| > 0
  {
    Gaussian(Mean(s), Variance(s))
  }

  /** The cluster numbers 1..n. */
  function Clusters(n: nat): (r: set<int>)
    ensures forall i :: i in r <==> 1 <= i <= n
  {
    if n == 0 then {} else Clusters(n - 1) + {n}
  }

  /** `k` names component `k.1` of cluster `k.0`. */
  predicate IsSlot(p: Parameters, k: Key) {
    && 1 <= k.0 <= p.clusterCount
    && k.0 in p.componentCount
    && 1 <= k.1 <= p.componentCount[k.0]
  }

  /** Every cluster has a component count and every component its Gaussian. */
  predicate Configured(p: Parameters) {
    && (forall i :: 1 <= i <= p.clusterCount ==> i in p.componentCount)
    && (forall i, j ::
          1 <= i <= p.clusterCount && 1 <= j <= p.componentCount[i] ==> (i, j) in p.gaussians)
  }

  predicate Consistent(p: Parameters, a: Assignment) {
    Configured(p) && |a.counts| == p.clusterCount
  }

  /** `keys` lists pairs in the order of nested `for i` / `for j` loops:
      by cluster, then by component, each pair once. */
  predicate RowMajor(keys: seq<Key>) {
    forall s, t :: 0 <= s < t < |keys| ==>
      keys[s].0 < keys[t].0 || (keys[s].0 == keys[t].0 && keys[s].1 < keys[t].1)
  }

  /** The pairs of cluster `n`, components 1..c in turn. */
  function Row(n: int, c: nat): (r: seq<Key>)
    ensures |r| == c && forall j :: 0 <= j < c ==> r[j] == (n, j + 1)
  {
    seq(c, j => (n, j + 1))
  }

  /** Appending the row of cluster `n`, components 1..c in turn, to pairs
      of earlier clusters keeps the loop order. */
  lemma RowMajorAppend(prefix: seq<Key>, n: int, c: nat)
    requires RowMajor(prefix)
    requires forall s :: 0 <= s < |prefix| ==> prefix[s].0 < n
    ensures RowMajor(prefix + Row(n, c))
    ensures forall s :: 0 <= s < |prefix| + c ==> (prefix + Row(n, c))[s].0 <= n
  {
    var row := Row(n, c);
    var keys := prefix + row;
    forall s, t | 0 <= s < t < |keys|
      ensures keys[s].0 < keys[t].0 || (keys[s].0 == keys[t].0 && keys[s].1 < keys[t].1)
    {
      if t < |prefix| {
        assert keys[s] == prefix[s] && keys[t] == prefix[t];
      } else if s < |prefix| {
        assert keys[s] == prefix[s] && keys[t] == row[t - |prefix|];
      } else {
        assert keys[s] == row[s - |prefix|] && keys[t] == row[t - |prefix|];
      }
    }
  }

  /** The (cluster, component) pairs in the order of the source's nested
      `for i` / `for j` loops, clusters 1..n. */
  function SlotsUpTo(p: Parameters, n: nat): (r: seq<Key>)
    requires Configured(p)
    requires n <= p.clusterCount
    ensures forall k :: k in r <==> IsSlot(p, k) && k.0 <= n
  {
    if n == 0 then []
    else
      var row := Row(n, p.componentCount[n]);
      assert forall k :: IsSlot(p, k) && k.0 == n ==> row[k.1 - 1] == k;
      SlotsUpTo(p, n - 1) + row
  }

  /** The slots of clusters 1..n come in loop order, each once, and none
      belongs to a later cluster. */
  lemma {:induction false} SlotsUpToInLoopOrder(p: Parameters, n: nat)
    requires Configured(p) && n <= p.clusterCount
    ensures RowMajor(SlotsUpTo(p, n))
    ensures forall s :: 0 <= s < |SlotsUpTo(p, n)| ==> SlotsUpTo(p, n)[s].0 <= n
  {
    if n > 0 {
      SlotsUpToInLoopOrder(p, n - 1);
      RowMajorAppend(SlotsUpTo(p, n - 1), n, p.componentCount[n]);
    }
  }

  /** `Slots` lists the slots in the order of the source's nested loops, each
      once; this is the order "first failing slot" refers to. */
  lemma SlotsInLoopOrder(p: Parameters)
    requires Configured(p)
    ensures RowMajor(Slots(p))
  {
    SlotsUpToInLoopOrder(p, p.clusterCount);
  }

  function Slots(p: Parameters): (r: seq<Key>)
    requires Configured(p)
    ensures forall k :: k in r <==> IsSlot(p, k)
    ensures forall k :: k in r ==> k in p.gaussians
  {
    SlotsUpTo(p, p.clusterCount)
  }

  /** A missing pool behaves as an empty one: the source skips `null` pools
      both when it sums pool sizes and when it tests `size() > 1`. */
  function PoolAt(pools: map<Key, seq<real>>, k: Key): seq<real> {
    if k in pools then pools[k] else []
  }

  /** The sum of the per-cluster variable counters. */
  function TotalCount(counts: seq<nat>): nat {
    if |counts| == 0 then 0 else TotalCount(counts[..|counts| - 1]) + counts[|counts| - 1]
  }

  /** Incrementing one counter raises the total by one. */
  lemma {:induction false} TotalCountIncrement(counts: seq<nat>, i: nat)
    requires i < |counts|
    ensures TotalCount(counts[i := counts[i] + 1]) == TotalCount(counts) + 1
  {
    var n := |counts|;
    var bumped := counts[i := counts[i] + 1];
    if i < n - 1 {
      assert bumped[..n - 1] == counts[..n - 1][i := counts[i] + 1];
      TotalCountIncrement(counts[..n - 1], i);
    } else {
      assert bumped[..n - 1] == counts[..n - 1];
    }
  }

  /** The priors of clusters 1..n, summed. */
  function ClusterPriorSum(ratios: map<int, real>, n: nat): real
    requires forall i :: 1 <= i <= n ==> i in ratios
  {
    if n == 0 then 0.0 else ClusterPriorSum(ratios, n - 1) + ratios[n]
  }

  /** The priors of components 1..c of cluster `i`, summed. */
  function ComponentPriorSum(ratios: map<Key, real>, i: int, c: nat): real
    requires forall j :: 1 <= j <= c ==> (i, j) in ratios
  {
    if c == 0 then 0.0 else ComponentPriorSum(ratios, i, c - 1) + ratios[(i, c)]
  }

  /** `n` counters at zero, as `new int[n]` allocates them. */
  function Zeros(n: nat): (r: seq<nat>)
    ensures |r| == n && TotalCount(r) == 0
    ensures forall i :: 0 <= i < n ==> r[i] == 0
  {
    if n == 0 then []
    else
      var prefix := Zeros(n - 1);
      assert (prefix + [0])[..n - 1] == prefix;
      prefix + [0]
  }
}

=== FILE: mstep.dfy ===
/** `executeMStep`: every component is refitted to the values the E-step
    pooled for it, or to a fresh random sample when its pool is too small or
    degenerate, and the priors are re-estimated with add-one smoothing. */
module MStep {
  import opened Results
  import opened Statistics
  import opened Mixture
  import opened Observations
  import opened Sampling

  /** How a component's new Gaussian was obtained. */
  datatype ComponentFit = Retained(gaussian: Gaussian) | Resampled(gaussian: Gaussian)

  /** The source's test for keeping a pool's statistics, `size() > 1` and a
      positive variance, holds exactly when the pool has two different
      values. */
  lemma KeptIffSpread(pool: seq<real>)
    ensures |pool| > 1 && Variance(pool) > 0.0 <==> |pool| > 1 && !AllSame(pool)
  {
    if |pool| > 1 {
      VarianceNonPositiveIffAllSame(pool);
    }
  }

  /** A pool keeps its own statistics when it holds more than one value and
      its variance is positive; otherwise the component is refitted to
      `sample`, the outcome of a `getRandomSamples()` call. */
  function Fit(pool: seq<real>, sample: Result<seq<real>, SampleError>): (r: Result<ComponentFit, SampleError>)
    requires sample.Success? ==> |sample.value| > 0
    ensures r.Success? && r.value.Retained? <==> |pool| > 1 && !AllSame(pool)
    ensures r.Success? && r.value.Retained? ==>
              r.value.gaussian == Estimate(pool) && r.value.gaussian.variance > 0.0
    ensures !(|pool| > 1 && !AllSame(pool)) ==> (r.Success? <==> sample.Success?)
    ensures r.Success? && r.value.Resampled? ==>
              sample.Success? && r.value.gaussian == Estimate(sample.value)
    ensures r.Failure? ==> sample.Failure? && r.error == sample.error
    ensures r.Success? ==> r.value.gaussian.variance >= 0.0
  {
    KeptIffSpread(pool);
    if |pool| > 1 && Variance(pool) > 0.0 then Success(Retained(Estimate(pool)))
    else
      match sample
      case Success(s) => VarianceNonNegative(s); Success(Resampled(Estimate(s)))
      case Failure(e) => Failure(e)
  }

  /** A resample from a sample whose values are all equal gets variance
      zero: the fit does not check the sample it falls back on. */
  lemma ConstantResampleDegenerates(pool: seq<real>, s: seq<real>)
    requires !(|pool| > 1 && !AllSame(pool))
    requires |s| > 0 && AllSame(s)
    ensures Fit(pool, Success(s)) == Success(Resampled(Estimate(s)))
    ensures Fit(pool, Success(s)).value.gaussian.variance == 0.0
  {
    ConstantVarianceZero(s);
  }

  /** The corrected fit, under which a non-positive variance never survives
      an M-step: a fresh sample without spread is rejected too, and
      the component keeps `previous`, its Gaussian before the step. */
  function GuardedFit(pool: seq<real>, sample: Result<seq<real>, SampleError>, previous: Gaussian)
    : (r: Result<Gaussian, SampleError>)
    requires sample.Success? ==> |sample.value| > 0
    ensures r.Success? <==> Fit(pool, sample).Success?
    ensures Fit(pool, sample).Success? && Fit(pool, sample).value.gaussian.variance > 0.0 ==>
              r.value == Fit(pool, sample).value.gaussian
    ensures Fit(pool, sample).Success? && Fit(pool, sample).value.gaussian.variance <= 0.0 ==>
              r.value == previous && Fit(pool, sample).value.Resampled?
              && Fit(pool, sample).value.gaussian.variance == 0.0
    ensures previous.variance > 0.0 && r.Success? ==> r.value.variance > 0.0
  {
    match Fit(pool, sample)
    case Failure(e) => Failure(e)
    case Success(f) => if f.gaussian.variance <= 0.0 then Success(previous) else Success(f.gaussian)
  }

  /** The smoothed prior of a cluster holding `count` of `variables`
      variables, among `clusterCount` clusters. */
  function ClusterRatio(count: nat, variables: nat, clusterCount: nat): (r: real)
    requires clusterCount > 0
    ensures 0.0 < r
  {
    (count + 1) as real / (variables + clusterCount) as real
  }

  /** The cluster priors of the M-step for the counters `counts` and
      `variables` variables: they sum to at most one exactly when the
      counters add up to no more than the variables, and to one exactly when
      they add up to them. */
  function ClusterRatios(counts: seq<nat>, variables: nat): (m: map<int, real>)
    ensures forall i :: i in m <==> 1 <= i <= |counts|
    ensures forall i :: 1 <= i <= |counts| ==> m[i] == ClusterRatio(counts[i - 1], variables, |counts|)
    ensures |counts| > 0 ==>
              && (ClusterPriorSum(m, |counts|) <= 1.0 <==> TotalCount(counts) <= variables)
              && (ClusterPriorSum(m, |counts|) == 1.0 <==> TotalCount(counts) == variables)
  {
    var n := |counts|;
    var m := map i | i in Clusters(n) :: ClusterRatio(counts[i - 1], variables, n);
    if n > 0 then
      var d := (variables + n) as real;
      assert forall i :: 1 <= i <= n ==> i in m && m[i] == (counts[i - 1] + 1) as real / d by {
        forall i | 1 <= i <= n
          ensures i in m && m[i] == (counts[i - 1] + 1) as real / d
        {
          assert i in Clusters(n);
        }
      }
      ClusterPriorSumValue(m, counts, d, n);
      assert counts[..n] == counts;
      DivAtMostOne((TotalCount(counts) + n) as real, d);
      m
    else m
  }

  /** The numerator of a component's prior: a pool of more than one value
      counts its size plus one, any other pool counts one. */
  function Weight(size: nat): nat {
    if size > 1 then size + 1 else 1
  }

  /** The prior of a component whose pool has `size` values, in a cluster
      whose components and pooled values number `total` together. */
  function ComponentRatio(size: nat, total: nat): (r: real)
    requires total > 0
    ensures 0.0 < r
  {
    Weight(size) as real / total as real
  }

  /** The summed sizes of pools 1..c of cluster `i`. */
  function PoolSizes(pools: map<Key, seq<real>>, i: int, c: nat): nat {
    if c == 0 then 0 else PoolSizes(pools, i, c - 1) + |PoolAt(pools, (i, c))|
  }

  /** `clusterVariableValuesTotal`: the component count plus the pooled
      values of the cluster. */
  function ClusterTotal(p: Parameters, pools: map<Key, seq<real>>, i: int): (r: nat)
    requires Configured(p) && 1 <= i <= p.clusterCount
    ensures r >= p.componentCount[i]
  {
    p.componentCount[i] + PoolSizes(pools, i, p.componentCount[i])
  }

  /** The refit of slot `k`, drawing its sample from `rng(k)`. */
  function SlotFit(a: Assignment, data: Data, rng: Key -> nat -> nat, k: Key): Result<ComponentFit, SampleError> {
    Fit(PoolAt(a.pools, k), Draw(data, rng(k)))
  }

  /** `error` is what the first failing refit among `slots` raised. */
  predicate FirstFitError(a: Assignment, data: Data, rng: Key -> nat -> nat, slots: seq<Key>, error: SampleError) {
    exists t :: 0 <= t < |slots| && SlotFit(a, data, rng, slots[t]).Failure?
                && error == SlotFit(a, data, rng, slots[t]).error
                && forall u :: 0 <= u < t ==> SlotFit(a, data, rng, slots[u]).Success?
  }

  /** When refitting `slots` in order fails, the error is the one of the
      first failing refit. */
  lemma FirstFailedFit(slots: seq<Key>, fit: Key -> Result<ComponentFit, SampleError>, a: Assignment, data: Data,
                       rng: Key -> nat -> nat)
    requires forall k :: fit(k) == SlotFit(a, data, rng, k)
    ensures Traverse(slots, fit).Failure? ==> FirstFitError(a, data, rng, slots, Traverse(slots, fit).error)
  {
    if Traverse(slots, fit).Success? {
      return;
    }
    var t :| 0 <= t < |slots| && fit(slots[t]).Failure? && fit(slots[t]).error == Traverse(slots, fit).error
             && forall u :: 0 <= u < t ==> fit(slots[u]).Success?;
    assert SlotFit(a, data, rng, slots[t]).Failure?;
  }

  /** `g` holds the refitted Gaussians: same keys as before; each slot with
      a spread pool keeps its own estimate, which has a positive variance;
      every other slot is estimated from its drawn sample; no fitted
      variance is negative; entries that are not slots are kept. */
  ghost predicate Refits(p: Parameters, a: Assignment, data: Data, rng: Key -> nat -> nat, g: map<Key, Gaussian>)
    requires Consistent(p, a)
    requires forall k :: IsSlot(p, k) ==> SlotFit(a, data, rng, k).Success?
  {
    && g.Keys == p.gaussians.Keys
    && (forall k :: IsSlot(p, k) ==> g[k] == SlotFit(a, data, rng, k).value.gaussian)
    && (forall k :: k in p.gaussians && !IsSlot(p, k) ==> g[k] == p.gaussians[k])
    && (forall k :: IsSlot(p, k) && |PoolAt(a.pools, k)| > 1 && !AllSame(PoolAt(a.pools, k)) ==>
          g[k] == Estimate(PoolAt(a.pools, k)) && g[k].variance > 0.0)
    && (forall k :: IsSlot(p, k) && !(|PoolAt(a.pools, k)| > 1 && !AllSame(PoolAt(a.pools, k))) ==>
          Draw(data, rng(k)).Success? && g[k] == Estimate(Draw(data, rng(k)).value))
    && (forall k :: IsSlot(p, k) ==> g[k].variance >= 0.0)
  }

  /** The parameters an M-step produces once every slot is refitted. */
  function Refitted(p: Parameters, a: Assignment, data: Data, rng: Key -> nat -> nat): (q: Parameters)
    requires Consistent(p, a)
    requires forall k :: IsSlot(p, k) ==> SlotFit(a, data, rng, k).Success?
    ensures q.clusterCount == p.clusterCount && q.componentCount == p.componentCount
    ensures Refits(p, a, data, rng, q.gaussians)
    ensures forall i :: i in q.clusterRatio <==> 1 <= i <= p.clusterCount
    ensures forall i :: 1 <= i <= p.clusterCount ==>
              q.clusterRatio[i] == ClusterRatio(a.counts[i - 1], |data.store|, p.clusterCount)
    ensures p.clusterCount > 0 ==>
              && (ClusterPriorSum(q.clusterRatio, p.clusterCount) <= 1.0 <==> TotalCount(a.counts) <= |data.store|)
              && (ClusterPriorSum(q.clusterRatio, p.clusterCount) == 1.0 <==> TotalCount(a.counts) == |data.store|)
    ensures forall k :: k in q.componentRatio <==> IsSlot(p, k)
    ensures forall k :: IsSlot(p, k) ==>
              q.componentRatio[k] == ComponentRatio(|PoolAt(a.pools, k)|, ClusterTotal(p, a.pools, k.0))
  {
    Parameters(
      p.clusterCount,
      p.componentCount,
      RefittedGaussians(p, a, data, rng),
      ClusterRatios(a.counts, |data.store|),
      ComponentRatios(p, a.pools))
  }

  /** Every slot's Gaussian replaced by its refit; other entries kept. */
  function RefittedGaussians(p: Parameters, a: Assignment, data: Data, rng: Key -> nat -> nat)
    : (g: map<Key, Gaussian>)
    requires Consistent(p, a)
    requires forall k :: IsSlot(p, k) ==> SlotFit(a, data, rng, k).Success?
    ensures Refits(p, a, data, rng, g)
  {
    map k | k in p.gaussians :: if IsSlot(p, k) then SlotFit(a, data, rng, k).value.gaussian else p.gaussians[k]
  }

  /** Every slot's component prior from its pool size and its cluster's total. */
  function ComponentRatios(p: Parameters, pools: map<Key, seq<real>>): (m: map<Key, real>)
    requires Configured(p)
    ensures forall k :: k in m <==> IsSlot(p, k)
    ensures forall k :: IsSlot(p, k) ==> m[k] == ComponentRatio(|PoolAt(pools, k)|, ClusterTotal(p, pools, k.0))
  {
    var slots := set k | k in Slots(p);
    map k | k in slots :: ComponentRatio(|PoolAt(pools, k)|, ClusterTotal(p, pools, k.0))
  }

  /** The Gaussians of the guarded M-step: each slot takes its `GuardedFit`.
      When every slot's variance was positive before the step, it still is
      after it, and every refit with a positive variance is taken as the
      source takes it. */
  function GuardedGaussians(p: Parameters, a: Assignment, data: Data, rng: Key -> nat -> nat)
    : (g: map<Key, Gaussian>)
    requires Consistent(p, a)
    requires forall k :: IsSlot(p, k) ==> SlotFit(a, data, rng, k).Success?
    ensures g.Keys == p.gaussians.Keys
    ensures (forall k :: IsSlot(p, k) ==> p.gaussians[k].variance > 0.0) ==>
              forall k :: IsSlot(p, k) ==> g[k].variance > 0.0
    ensures forall k :: IsSlot(p, k) && SlotFit(a, data, rng, k).value.gaussian.variance > 0.0 ==>
              g[k] == SlotFit(a, data, rng, k).value.gaussian
    ensures forall k :: k in p.gaussians && !IsSlot(p, k) ==> g[k] == p.gaussians[k]
  {
    assert forall k :: IsSlot(p, k) ==> GuardedFit(PoolAt(a.pools, k), Draw(data, rng(k)), p.gaussians[k]).Success?
      by {
        forall k | IsSlot(p, k)
          ensures GuardedFit(PoolAt(a.pools, k), Draw(data, rng(k)), p.gaussians[k]).Success?
        {
          assert SlotFit(a, data, rng, k).Success?;
        }
      }
    map k | k in p.gaussians ::
      if IsSlot(p, k) then GuardedFit(PoolAt(a.pools, k), Draw(data, rng(k)), p.gaussians[k]).value
      else p.gaussians[k]
  }

  /** `executeMStep`, refitting slot by slot in the order of its loops: the
      first failing resample aborts it. On success the Gaussians and priors
      are replaced, the pools emptied and everything else kept. */
  function Step(p: Parameters, a: Assignment, data: Data, rng: Key -> nat -> nat): (r: Result<Estimator, SampleError>)
    requires Consistent(p, a)
    ensures r.Success? <==> forall k :: IsSlot(p, k) ==> SlotFit(a, data, rng, k).Success?
    ensures SourcesAvailable(data) ==> r.Success?
    ensures r.Failure? ==>
              exists k :: IsSlot(p, k) && !(|PoolAt(a.pools, k)| > 1 && !AllSame(PoolAt(a.pools, k)))
                          && Draw(data, rng(k)).Failure? && r.error == Draw(data, rng(k)).error
    ensures r.Failure? ==> FirstFitError(a, data, rng, Slots(p), r.error)
    ensures r.Success? ==>
              && Consistent(r.value.params, r.value.assignment)
              && r.value.params == Refitted(p, a, data, rng)
              && r.value.assignment == a.(pools := map[])
  {
    var slots := Slots(p);
    var fit := (k: Key) => SlotFit(a, data, rng, k);
    match Traverse(slots, fit)
    case Failure(e) =>
      FirstFailedFit(slots, fit, a, data, rng);
      Failure(e)
    case Success(_) =>
      assert forall k :: IsSlot(p, k) ==> k in slots;
      Success(Estimator(Refitted(p, a, data, rng), a.(pools := map[])))
  }

  /** The number of pools among 1..c of cluster `i` that hold exactly one
      value: such a pool is resampled and its value left out of its prior. */
  function Singletons(pools: map<Key, seq<real>>, i: int, c: nat): (r: nat)
    ensures r <= c
  {
    if c == 0 then 0 else Singletons(pools, i, c - 1) + (if |PoolAt(pools, (i, c))| == 1 then 1 else 0)
  }

  /** Priors of the form `Weight(size) / d`, summed over components 1..c
      of cluster `i`: one `/ d` per component and per pooled value, less
      one per single-value pool. */
  lemma {:induction false} ComponentPriorSumValue(ratios: map<Key, real>, pools: map<Key, seq<real>>, i: int,
                                                  c: nat, total: nat)
    requires total > 0
    requires forall j :: 1 <= j <= c ==>
               (i, j) in ratios && ratios[(i, j)] == ComponentRatio(|PoolAt(pools, (i, j))|, total)
    ensures ComponentPriorSum(ratios, i, c)
            == (c + PoolSizes(pools, i, c) - Singletons(pools, i, c)) as real / total as real
  {
    if c > 0 {
      ComponentPriorSumValue(ratios, pools, i, c - 1, total);
      DivAdd((c - 1 + PoolSizes(pools, i, c - 1) - Singletons(pools, i, c - 1)) as real,
             Weight(|PoolAt(pools, (i, c))|) as real, total as real);
    }
  }

  /** Component priors over components 1..c of cluster `i`, with the
      components plus their pooled values as the total, sum to one exactly
      when no pool holds a single value. */
  lemma ComponentWeightsSumToOne(ratios: map<Key, real>, pools: map<Key, seq<real>>, i: int, c: nat, total: nat)
    requires c > 0 && total == c + PoolSizes(pools, i, c)
    requires forall j :: 1 <= j <= c ==>
               (i, j) in ratios && ratios[(i, j)] == ComponentRatio(|PoolAt(pools, (i, j))|, total)
    ensures ComponentPriorSum(ratios, i, c) == 1.0 <==> Singletons(pools, i, c) == 0
  {
    ComponentPriorSumValue(ratios, pools, i, c, total);
    DivAtMostOne((total - Singletons(pools, i, c)) as real, total as real);
  }

  /** The component priors an M-step gives a cluster sum to one exactly when
      none of its pools holds a single value. */
  lemma ComponentPriorsSumToOne(p: Parameters, a: Assignment, data: Data, rng: Key -> nat -> nat, i: int)
    requires Consistent(p, a)
    requires forall k :: IsSlot(p, k) ==> SlotFit(a, data, rng, k).Success?
    requires 1 <= i <= p.clusterCount && p.componentCount[i] > 0
    ensures var q := Refitted(p, a, data, rng);
            ComponentPriorSum(q.componentRatio, i, p.componentCount[i]) == 1.0
            <==> Singletons(a.pools, i, p.componentCount[i]) == 0
  {
    var q := Refitted(p, a, data, rng);
    var c := p.componentCount[i];
    forall j | 1 <= j <= c
      ensures (i, j) in q.componentRatio
      ensures q.componentRatio[(i, j)] == ComponentRatio(|PoolAt(a.pools, (i, j))|, ClusterTotal(p, a.pools, i))
    {
      assert IsSlot(p, (i, j));
    }
    ComponentWeightsSumToOne(q.componentRatio, a.pools, i, c, ClusterTotal(p, a.pools, i));
  }

  /** Priors of the form `(counts[i - 1] + 1) / d`, summed over clusters
      1..n. */
  lemma {:induction false} ClusterPriorSumValue(ratios: map<int, real>, counts: seq<nat>, d: real, n: nat)
    requires d > 0.0 && n <= |counts|
    requires forall i :: 1 <= i <= n ==> i in ratios && ratios[i] == (counts[i - 1] + 1) as real / d
    ensures ClusterPriorSum(ratios, n) == (TotalCount(counts[..n]) + n) as real / d
  {
    if n > 0 {
      ClusterPriorSumValue(ratios, counts, d, n - 1);
      assert counts[..n][..n - 1] == counts[..n - 1];
      DivAdd((TotalCount(counts[..n - 1]) + n - 1) as real, (counts[n - 1] + 1) as real, d);
    }
  }

  /** The cluster priors an M-step sets sum to at most one exactly when the
      counters add up to no more than the number of variables, and to one
      exactly when they add up to it. */
  lemma ClusterPriorsSum(p: Parameters, a: Assignment, data: Data, rng: Key -> nat -> nat)
    requires Consistent(p, a) && p.clusterCount > 0
    requires forall k :: IsSlot(p, k) ==> SlotFit(a, data, rng, k).Success?
    ensures var q := Refitted(p, a, data, rng);
            && (ClusterPriorSum(q.clusterRatio, p.clusterCount) <= 1.0 <==> TotalCount(a.counts) <= |data.store|)
            && (ClusterPriorSum(q.clusterRatio, p.clusterCount) == 1.0 <==> TotalCount(a.counts) == |data.store|)
  {
  }

  /** As written, an M-step that refits a component to a sample without
      spread leaves that component with variance zero. */
  lemma ConstantResampleInStep(p: Parameters, a: Assignment, data: Data, rng: Key -> nat -> nat, k: Key)
    requires Consistent(p, a)
    requires IsSlot(p, k) && !(|PoolAt(a.pools, k)| > 1 && !AllSame(PoolAt(a.pools, k)))
    requires Draw(data, rng(k)).Success? && AllSame(Draw(data, rng(k)).value)
    ensures Step(p, a, data, rng).Success? ==>
              var e := Step(p, a, data, rng).value;
              && Consistent(e.params, e.assignment)
              && IsSlot(e.params, k)
              && e.params.gaussians[k].variance == 0.0
  {
    if Step(p, a, data, rng).Success? {
      var q := Refitted(p, a, data, rng);
      ConstantVarianceZero(Draw(data, rng(k)).value);
      assert q.gaussians[k] == Estimate(Draw(data, rng(k)).value);
    }
  }
}

=== FILE: observations.dfy ===
/** The loaded observations and the one-time "too many unique values" filter. */
module Observations {

  /** A variable with more distinct values than this is dropped. */
  const UNIQUE_VALUE_LIMIT: nat := 200

  /** What loading leaves behind: each variable's finite observations in file
      order, the working list of variable names, and the contents of the
      low- and high-extreme queues as arrays. */
  datatype Data = Data(
    store: map<string, seq<real>>,
    names: seq<string>,
    low: seq<real>,
    high: seq<real>)

  /** The size of `new HashSet<>(values)`. */
  function DistinctCount(values: seq<real>): nat {
    |set v | v in values|
  }

  predicate TooManyUnique(values: seq<real>) {
    DistinctCount(values) > UNIQUE_VALUE_LIMIT
  }

  predicate Dropped(d: Data, name: string) {
    name in d.store && TooManyUnique(d.store[name])
  }

  /** The store without the variables that have too many distinct values. */
  function FilterStore(store: map<string, seq<real>>): (r: map<string, seq<real>>)
    ensures forall n :: n in r <==> n in store && !TooManyUnique(store[n])
    ensures forall n :: n in r ==> r[n] == store[n]
  {
    map n | n in store && !TooManyUnique(store[n]) :: store[n]
  }

  /** Every occurrence of a name in `drop` removed, the others kept in order. */
  function RemoveAll(names: seq<string>, drop: set<string>): (r: seq<string>)
    ensures forall n :: n in r <==> n in names && n !in drop
    ensures forall n :: multiset(r)[n] == if n in drop then 0 else multiset(names)[n]
    ensures |r| <= |names|
  {
    if |names| == 0 then []
    else
      assert names == [names[0]] + names[1..];
      if names[0] in drop then RemoveAll(names[1..], drop)
      else [names[0]] + RemoveAll(names[1..], drop)
  }

  /** The names whose variables the filter drops. */
  function DroppedNames(d: Data): (r: set<string>)
    ensures forall n :: n in r <==> Dropped(d, n)
  {
    set n | n in d.store && TooManyUnique(d.store[n])
  }

  /** `printUniqueCount`, removing a dropped variable from the store and from
      the name list. This is the corrected form: it removes every occurrence
      of the name (see `UniqueCountFilterAsWritten`). */
  function UniqueCountFilter(d: Data): (r: Data)
    ensures forall n :: n in r.store <==> n in d.store && !TooManyUnique(d.store[n])
    ensures forall n :: n in r.store ==> r.store[n] == d.store[n]
    ensures forall n :: n in r.names <==> n in d.names && !Dropped(d, n)
    ensures forall n :: !Dropped(d, n) ==> multiset(r.names)[n] == multiset(d.names)[n]
    ensures forall n :: Dropped(d, n) ==> multiset(r.names)[n] == 0
    ensures r.low == d.low && r.high == d.high
  {
    Data(FilterStore(d.store), RemoveAll(d.names, DroppedNames(d)), d.low, d.high)
  }

  /** Names that all denote loaded variables. */
  predicate NamesLoaded(d: Data) {
    forall n :: n in d.names ==> n in d.store
  }

  /** The corrected filter keeps the name list and the store in step. */
  lemma UniqueCountFilterKeepsNamesLoaded(d: Data)
    requires NamesLoaded(d)
    ensures NamesLoaded(UniqueCountFilter(d))
  {
  }

  /** `List.remove(Object)` as the source calls it once per dropped variable:
      only the FIRST occurrence of each dropped name goes. */
  function RemoveFirstOccurrences(names: seq<string>, drop: set<string>): (r: seq<string>)
    ensures forall n :: n !in drop ==> multiset(r)[n] == multiset(names)[n]
    ensures forall n :: n in drop && n in names ==> multiset(r)[n] == multiset(names)[n] - 1
  {
    if |names| == 0 then []
    else if names[0] in drop then
      var rest := RemoveFirstOccurrences(names[1..], drop - {names[0]});
      assert names == [names[0]] + names[1..];
      rest
    else
      var rest := RemoveFirstOccurrences(names[1..], drop);
      assert names == [names[0]] + names[1..];
      [names[0]] + rest
  }

  /** `printUniqueCount` as written. */
  function UniqueCountFilterAsWritten(d: Data): (r: Data)
    ensures r.store == FilterStore(d.store)
    ensures forall n :: !Dropped(d, n) ==> multiset(r.names)[n] == multiset(d.names)[n]
    ensures forall n :: Dropped(d, n) && n in d.names ==> multiset(r.names)[n] == multiset(d.names)[n] - 1
    ensures r.low == d.low && r.high == d.high
  {
    Data(FilterStore(d.store), RemoveFirstOccurrences(d.names, DroppedNames(d)), d.low, d.high)
  }

  /** A name listed twice in the variable-name file survives the filter as
      written once, although its variable is gone from the store. */
  lemma DuplicateNameSurvivesFilter(values: seq<real>)
    requires TooManyUnique(values)
    ensures var d := Data(map["x" := values], ["x", "x"], [], []);
            var r := UniqueCountFilterAsWritten(d);
            r.names == ["x"] && "x" !in r.store && !NamesLoaded(r)
  {
    var d := Data(map["x" := values], ["x", "x"], [], []);
    assert DroppedNames(d) == {"x"};
    var r := UniqueCountFilterAsWritten(d);
    assert ["x", "x"][1..] == ["x"] && ["x"][1..] == [];
    assert {"x"} - {"x"} == {};
    assert RemoveFirstOccurrences(["x"], {}) == ["x"];
    assert r.names == RemoveFirstOccurrences(["x"], {});
  }
}

=== FILE: results.dfy ===
/** Failure-carrying results, and the "run a loop that may throw" combinator. */
module Results {

  /** Either a value or the error that stopped the computation (a Java exception). */
  datatype Result<+T, +E> = Success(value: T) | Failure(error: E)

  /** Applies `f` to the elements of `xs` in order and stops at the first
      failure, the way a Java `for` loop propagates the first exception thrown
      by its body. */
  function Traverse<X, T, E>(xs: seq<X>, f: X -> Result<T, E>): (r: Result<seq<T>, E>)
    ensures r.Success? <==> forall k :: 0 <= k < |xs| ==> f(xs[k]).Success?
    ensures r.Success? ==> |r.value| == |xs|
    ensures r.Success? ==> forall k :: 0 <= k < |xs| ==> r.value[k] == f(xs[k]).value
    ensures r.Failure? ==>
              exists k :: 0 <= k < |xs| && f(xs[k]).Failure? && f(xs[k]).error == r.error
                          && forall l :: 0 <= l < k ==> f(xs[l]).Success?
  {
    if |xs| == 0 then Success([])
    else
      match Traverse(xs[..|xs| - 1], f)
      case Failure(e) => Failure(e)
      case Success(prefix) =>
        match f(xs[|xs| - 1])
        case Failure(e) => Failure(e)
        case Success(x) => Success(prefix + [x])
  }
}

=== FILE: sampling.dfy ===
/** The three `getRandomSamples` overloads. Randomness is an oracle: `rand(k)`
    is the k-th raw draw, and `nextInt(bound)` becomes `rand(k) % bound`, so
    every in-range outcome is reachable and none outside it. */
module Sampling {
  import opened Results
  import opened Mixture
  import opened Observations

  /** The runtime exceptions a draw can raise: `nextInt(0)` on an empty array
      or name list, a listed name with no stored variable (a
      `NullPointerException`), or a variable without observations. */
  datatype SampleError =
    | EmptyExtremes
    | NoVariables
    | UnknownVariable(name: string)
    | NoObservations(name: string)

  /** Where a sample comes from. */
  datatype Source = LowExtremes | HighExtremes | AnyObservation

  /** `nextInt(5)` picks the source: 1 and 2 pick an extreme array, the other
      three outcomes the observation pool. */
  function SourceOf(selector: nat): (s: Source)
    requires selector < 5
    ensures s == LowExtremes <==> selector == 1
    ensures s == HighExtremes <==> selector == 2
  {
    if selector == 1 then LowExtremes
    else if selector == 2 then HighExtremes
    else AnyObservation
  }

  function Range(n: nat): (r: seq<nat>)
    ensures |r| == n && forall k :: 0 <= k < n ==> r[k] == k
  {
    seq(n, k => k)
  }

  /** `getRandomSamples(Double[], int)`: `size` draws with replacement from
      `arr`. */
  function FromArray(arr: seq<real>, size: nat, rand: nat -> nat): (r: Result<seq<real>, SampleError>)
    ensures r.Success? <==> size == 0 || |arr| > 0
    ensures r.Success? ==> |r.value| == size
    ensures r.Success? ==> forall k :: 0 <= k < size ==> r.value[k] in arr
  {
    if size == 0 then Success([])
    else if |arr| == 0 then Failure(EmptyExtremes)
    else Success(seq(size, k requires 0 <= k < size => arr[rand(k) % |arr|]))
  }

  /** One iteration of `getRandomSamples(int)`: a random listed variable, then
      a random observation of it. */
  function DrawObservation(d: Data, nameDraw: nat, valueDraw: nat): (r: Result<real, SampleError>)
    ensures r.Success? ==>
              exists n :: n in d.names && n in d.store && r.value in d.store[n]
    ensures ObservationsAvailable(d) ==> r.Success?
    ensures |d.names| == 0 ==> r == Failure(NoVariables)
    ensures r.Failure? && |d.names| > 0 ==>
              var name := d.names[nameDraw % |d.names|];
              || (name !in d.store && r.error == UnknownVariable(name))
              || (name in d.store && |d.store[name]| == 0 && r.error == NoObservations(name))
  {
    if |d.names| == 0 then Failure(NoVariables)
    else
      var name := d.names[nameDraw % |d.names|];
      if name !in d.store then Failure(UnknownVariable(name))
      else if |d.store[name]| == 0 then Failure(NoObservations(name))
      else Success(d.store[name][valueDraw % |d.store[name]|])
  }

  /** Every listed name denotes a loaded variable with at least one value. */
  predicate ObservationsAvailable(d: Data) {
    && |d.names| > 0
    && forall n :: n in d.names ==> n in d.store && |d.store[n]| > 0
  }

  /** Draw number `k` of `getRandomSamples(int)`. */
  function DrawAt(d: Data, rand: nat -> nat, k: nat): Result<real, SampleError> {
    DrawObservation(d, rand(2 * k), rand(2 * k + 1))
  }

  /** Draw `k` is the first to throw. */
  predicate FailsFirst(d: Data, rand: nat -> nat, k: nat) {
    DrawAt(d, rand, k).Failure? && forall l :: 0 <= l < k ==> DrawAt(d, rand, l).Success?
  }

  /** `getRandomSamples(int)`: element `k` uses draws `2k` and `2k + 1`. */
  function FromObservations(d: Data, size: nat, rand: nat -> nat): (r: Result<seq<real>, SampleError>)
    ensures ObservationsAvailable(d) || size == 0 ==> r.Success?
    ensures r.Success? ==> |r.value| == size
    ensures r.Success? ==>
              forall k :: 0 <= k < size ==>
                exists n :: n in d.names && n in d.store && r.value[k] in d.store[n]
    ensures r.Failure? ==> size > 0 && !ObservationsAvailable(d)
    ensures r.Failure? ==>
              exists k :: 0 <= k < size && FailsFirst(d, rand, k) && r.error == DrawAt(d, rand, k).error
    ensures size > 0 && |d.names| == 0 ==> r == Failure(NoVariables)
  {
    var draw := (k: nat) => DrawObservation(d, rand(2 * k), rand(2 * k + 1));
    var ks := Range(size);
    var r := Traverse(ks, draw);
    assert forall k :: 0 <= k < size ==> draw(ks[k]) == DrawAt(d, rand, k);
    if |d.names| == 0 then
      NoNamesFailsAtOnce(d, rand);
      r
    else r
  }

  /** Without listed names every draw throws `NoVariables`, the first one
      included. */
  lemma NoNamesFailsAtOnce(d: Data, rand: nat -> nat)
    requires |d.names| == 0
    ensures FailsFirst(d, rand, 0) && DrawAt(d, rand, 0) == Failure(NoVariables)
    ensures forall k :: FailsFirst(d, rand, k) ==> k == 0
  {
  }

  /** `getRandomSamples()`: a sample of SAMPLE_SIZE values from the source the
      selector picks. It fails only when that source is empty or broken. */
  function RandomSample(d: Data, selector: nat, rand: nat -> nat): (r: Result<seq<real>, SampleError>)
    requires selector < 5
    ensures r.Success? ==> |r.value| == SAMPLE_SIZE
    ensures SourceOf(selector) == LowExtremes ==>
              (r.Success? <==> |d.low| > 0)
              && (r.Success? ==> forall k :: 0 <= k < SAMPLE_SIZE ==> r.value[k] in d.low)
    ensures SourceOf(selector) == HighExtremes ==>
              (r.Success? <==> |d.high| > 0)
              && (r.Success? ==> forall k :: 0 <= k < SAMPLE_SIZE ==> r.value[k] in d.high)
    ensures SourceOf(selector) == AnyObservation ==>
              (ObservationsAvailable(d) ==> r.Success?)
              && (r.Success? ==>
                    forall k :: 0 <= k < SAMPLE_SIZE ==>
                      exists n :: n in d.names && n in d.store && r.value[k] in d.store[n])
  {
    match SourceOf(selector)
    case LowExtremes => FromArray(d.low, SAMPLE_SIZE, rand)
    case HighExtremes => FromArray(d.high, SAMPLE_SIZE, rand)
    case AnyObservation => FromObservations(d, SAMPLE_SIZE, rand)
  }

  /** Both extreme arrays are filled and every listed variable has values. */
  predicate SourcesAvailable(d: Data) {
    |d.low| > 0 && |d.high| > 0 && ObservationsAvailable(d)
  }

  /** A whole `getRandomSamples()` call from one oracle: draw 0 is the
      selector, the rest feed the chosen overload. Whatever the selector,
      it succeeds when every source is available. */
  function Draw(d: Data, rng: nat -> nat): (r: Result<seq<real>, SampleError>)
    ensures r.Success? ==> |r.value| == SAMPLE_SIZE
    ensures SourcesAvailable(d) ==> r.Success?
  {
    RandomSample(d, rng(0) % 5, k => rng(k + 1))
  }

  /** The duplicate-name slip of the unique-count filter as written reaches
      the sampler: the surviving name has no variable behind it, so every
      non-empty observation sample throws on its first draw. */
  lemma DuplicateNameBreaksSampling(values: seq<real>, size: nat, rand: nat -> nat)
    requires TooManyUnique(values) && size > 0
    ensures var r := FromObservations(
              UniqueCountFilterAsWritten(Data(map["x" := values], ["x", "x"], [], [])), size, rand);
            r.Failure? && r.error == UnknownVariable("x")
  {
    DuplicateNameSurvivesFilter(values);
    var d := UniqueCountFilterAsWritten(Data(map["x" := values], ["x", "x"], [], []));
    assert DrawAt(d, rand, 0) == Failure(UnknownVariable("x"));
    assert forall k :: FailsFirst(d, rand, k) ==> k == 0;
  }

  /** With the corrected filter a listed name always denotes a loaded
      variable, so no draw fails for an unknown name. */
  lemma FilteredNamesNeverUnknown(d: Data, nameDraw: nat, valueDraw: nat)
    requires NamesLoaded(d)
    ensures var r := DrawObservation(UniqueCountFilter(d), nameDraw, valueDraw);
            r.Failure? ==> !r.error.UnknownVariable?
  {
    UniqueCountFilterKeepsNamesLoaded(d);
  }
}

=== FILE: statistics.dfy ===
/** Exact counterparts of `DescriptiveStatistics.getMean` and `getVariance`
    (the bias-corrected sample variance, divisor n - 1). */
module Statistics {

  function Sum(s: seq<real>): real {
    if |s| == 0 then 0.0 else Sum(s[..|s| - 1]) + s[|s| - 1]
  }

  function Mean(s: seq<real>): real
    requires |s| > 0
  {
    Sum(s) / (|s| as real)
  }

  /** Real product, kept behind a function so that the solver treats each
      square below as one term. */
  function Mul(a: real, b: real): real {
    a * b
  }

  /** Sum of squared deviations of `s` from `m`. */
  function Deviation(s: seq<real>, m: real): real {
    if |s| == 0 then 0.0
    else Deviation(s[..|s| - 1], m) + Mul(s[|s| - 1] - m, s[|s| - 1] - m)
  }

  /** Sample variance; a single value has variance 0, as in commons-math. */
  function Variance(s: seq<real>): real
    requires |s| > 0
  {
    if |s| == 1 then 0.0 else Deviation(s, Mean(s)) / ((|s| - 1) as real)
  }

  predicate AllSame(s: seq<real>) {
    forall i, j :: 0 <= i < |s| && 0 <= j < |s| ==> s[i] == s[j]
  }

  lemma {:induction false} SumOfConstant(s: seq<real>, c: real)
    requires forall i :: 0 <= i < |s| ==> s[i] == c
    ensures Sum(s) == (|s| as real) * c
  {
    if |s| > 0 {
      SumOfConstant(s[..|s| - 1], c);
    }
  }

  lemma {:induction false} SumBounds(s: seq<real>, lo: real, hi: real)
    requires forall i :: 0 <= i < |s| ==> lo <= s[i] <= hi
    ensures (|s| as real) * lo <= Sum(s) <= (|s| as real) * hi
  {
    if |s| > 0 {
      SumBounds(s[..|s| - 1], lo, hi);
    }
  }

  lemma ProductPositive(a: real, b: real)
    requires (a > 0.0 && b > 0.0) || (a < 0.0 && b < 0.0)
    ensures Mul(a, b) > 0.0
  {
  }

  lemma SquareNonNegative(a: real)
    ensures Mul(a, a) >= 0.0
  {
    if a != 0.0 {
      ProductPositive(a, a);
    }
  }

  lemma {:induction false} DeviationNonNegative(s: seq<real>, m: real)
    ensures Deviation(s, m) >= 0.0
  {
    if |s| > 0 {
      DeviationNonNegative(s[..|s| - 1], m);
      SquareNonNegative(s[|s| - 1] - m);
    }
  }

  /** The squared deviations vanish exactly when every value equals `m`. */
  lemma {:induction false} DeviationZero(s: seq<real>, m: real)
    ensures Deviation(s, m) == 0.0 <==> forall i :: 0 <= i < |s| ==> s[i] == m
  {
    if |s| > 0 {
      var p := s[..|s| - 1];
      DeviationZero(p, m);
      DeviationNonNegative(p, m);
      SquareNonNegative(s[|s| - 1] - m);
      assert forall i :: 0 <= i < |p| ==> p[i] == s[i];
      if s[|s| - 1] != m {
        ProductPositive(s[|s| - 1] - m, s[|s| - 1] - m);
      }
    }
  }

  /** The mean of a sample lies between its least and its greatest value. */
  lemma MeanWithin(s: seq<real>, lo: real, hi: real)
    requires |s| > 0
    requires forall i :: 0 <= i < |s| ==> lo <= s[i] <= hi
    ensures lo <= Mean(s) <= hi
  {
    SumBounds(s, lo, hi);
  }

  /** A sample variance is never negative. */
  lemma VarianceNonNegative(s: seq<real>)
    requires |s| > 0
    ensures Variance(s) >= 0.0
  {
    if |s| > 1 {
      DeviationNonNegative(s, Mean(s));
    }
  }

  /** A sample of two or more values has variance `<= 0` exactly when all its
      values are equal: the degenerate case the M-step resamples. */
  lemma VarianceNonPositiveIffAllSame(s: seq<real>)
    requires |s| >= 2
    ensures Variance(s) <= 0.0 <==> AllSame(s)
  {
    var m := Mean(s);
    DeviationNonNegative(s, m);
    DeviationZero(s, m);
    if Variance(s) <= 0.0 {
      assert Deviation(s, m) == Variance(s) * ((|s| - 1) as real);
    }
    if AllSame(s) {
      SumOfConstant(s, s[0]);
    }
  }

  /** A sample whose values are all equal has variance zero. */
  lemma ConstantVarianceZero(s: seq<real>)
    requires |s| > 0 && AllSame(s)
    ensures Variance(s) == 0.0
  {
    if |s| > 1 {
      VarianceNonPositiveIffAllSame(s);
      VarianceNonNegative(s);
    }
  }

  /** Fractions over a common positive denominator add their numerators. */
  lemma DivAdd(x: real, y: real, d: real)
    requires d > 0.0
    ensures x / d + y / d == (x + y) / d
  {
  }

  /** A fraction over a positive denominator is at most one, or exactly one,
      as its numerator is at most, or exactly, the denominator. */
  lemma DivAtMostOne(x: real, d: real)
    requires d > 0.0
    ensures x / d <= 1.0 <==> x <= d
    ensures x / d == 1.0 <==> x == d
  {
  }
}
